=== FILE: README.md ===
# random-walks in Dafny

A model of the core of `random-walks`, a small Python library that builds
one-dimensional random walks and computes descriptive statistics over them.

- **Walks.** A walk starts at a value. Each step adds a random magnitude when
  a uniform decision in `[0, 1)` falls below a probability, and subtracts it
  otherwise. `walk.py` draws the magnitude from an `Interval`; `stoch_walk.py`
  draws it from a two-element list.
- **Statistics.** `stat_helper.py` and its near-copy `stat.py` compute:
  - the list `1..n` of x-positions;
  - the chunking of a list into periods (`partition_set`, also in
    `partition.py`);
  - the mean, the unbiased sample variance and the standard deviation;
  - a simple moving average.
- **Plots.** `plot_walk` in `walk.py` and `stoch_walk.py` draws the running
  variance of the walk's positions, computed with `stat_helper.py`'s
  `variance`.

The random numbers a walk draws are passed in as a sequence of `Draw`
values (a decision and a magnitude). Every exception the Python code raises
becomes a value:
- `Result` for a function that raises;
- `Outcome` for a method that raises after it has already changed the object
  (a state plus the exception).

Modules, one per component:
- `Errors`: `Option`, the exception kinds, `Result` and `Outcome`.
- `PyInt`: Python's flooring `//` and `%`.
- `Intervals`: `interval.py`.
- `Partition`: `partition_set`.
- `Stats`: averages, variance, `sd` and the running variance.
- `MovingAverage`: `sma`.
- `Steps`: one iteration of `generate_walk`, and the list `view_walk` returns.
- `RandomWalk`: `walk.py`.
- `StochWalk`: `stoch_walk.py`.

Integers are unbounded and values are exact reals. `partition_set` is
modelled for every integer period, negative ones included, because Python's
`//` and `%` floor toward negative infinity.

## Model

| member | source | states |
|---|---|---|
| PyInt.Mod | partition.py:10 | Python's `%` is zero or carries the sign of the divisor, so `(i+1) % n` lies in `(n, 0]` for a negative `n` |
| PyInt.DivModIdentity | partition.py:5 | `(x // d) * d + x % d == x` for every nonzero `d`, with Python's flooring division |
| PyInt.ModZeroIff | partition.py:17 | `len % n != 0` tests divisibility by `abs(n)` whatever the sign of `n` |
| Intervals.NewInterval | interval.py:18-37 | the constructor accepts any pair of bounds, a reversed pair included, and `get_lower_bound` / `get_upper_bound` hand back exactly the bounds it was given, the flags being kept too |
| Partition.PartitionSetLoop | partition.py:2-19 | the loop as written computes the reference chunking for every integer `n`. The loop keeps Python's `//` and `%`, and its redundant second guard. A zero period raises ZeroDivisionError, and a negative period that does not divide the length raises IndexError |
| Partition.PartitionSet | partition.py:2-19 | `partition_set` raises exactly for `n == 0` or a negative `n` not dividing the length. Whenever it returns, the chunks concatenate to the list and none is empty |
| Partition.PartitionSetOutcome | partition.py:2-19 | `partition_set` raises ZeroDivisionError exactly for `n == 0` and IndexError exactly for a negative `n` not dividing the length; whenever it returns, concatenating the chunks gives the input list back |
| Partition.FlattenChunks | partition.py:9-18 | no element is lost, repeated or reordered: the chunks concatenate to the list |
| Partition.ChunksShape | partition.py:4-18 | there are `ceil(len / n)` chunks. No chunk is empty. All chunks have `n` elements except a final remainder `lst[(len // n) * n:]` of `len % n` elements when `n` does not divide the length |
| Partition.ChunksCount | partition.py:4-18 | the number of chunks is `ceil(len / n)` |
| Partition.ChunksRemainder | partition.py:17-18 | the last chunk is the slice from the border `(len // n) * n` exactly when `n` does not divide the length |
| Partition.BorderFacts | partition.py:5 | the border `(len // n) * n` is a multiple of `abs(n)`. For a positive `n` it is the largest such multiple at or below `len`. For a negative `n` it lies past the end of the list unless `abs(n)` divides `len` |
| Partition.StrayGuardHolds | partition.py:15 | the guard `i+1%n != 0 or i==0`, read as `i + (1 % n)`, is true whenever the loop reaches it, so it never skips an element |
| Partition.ChunksAppend | partition.py:9-16 | one more chunk of at most `n` elements after whole chunks is appended as it is: the step the loop takes when it closes a chunk |
| Stats.GenerateX | stat_helper.py:8-9 | `generate_X(size)` lists `1, 2, ..., size`, and nothing for a size of zero or below |
| Stats.Reverse | stat_helper.py:68 | `s[::-1]` keeps the length and puts element `i` at `len - 1 - i` |
| Stats.ReverseReverse | stat_helper.py:84 | re-reversing in `sma` restores the original order |
| Stats.SumReverse | stat_helper.py:38 | reversing the list keeps its `sum` |
| Stats.SumAppend | stat_helper.py:38 | the `sum` of a concatenation is the sum of the two parts' sums |
| Stats.SumFront | stat_helper.py:38 | `sum`'s left-to-right fold equals the first element plus the sum of the rest |
| Stats.SumShift | stat_helper.py:38 | moving every sample by `c` moves the `sum` by `len * c` |
| Stats.Average | stat_helper.py:37-39 | `average` raises ZeroDivisionError exactly on the empty list, and raises nothing else; otherwise its result times the length is the sum |
| Stats.AverageWithin | stat_helper.py:37-39 | the mean lies between any lower and upper bound of the samples |
| Stats.AverageReverse | stat_helper.py:37-39 | the mean of the reversed list, as `sma` computes it, equals the mean of the list |
| Stats.AverageShift | stat_helper.py:37-39 | moving every sample of a non-empty list by `c` moves the mean by `c` |
| Stats.Variance | stat_helper.py:42-56 | `variance` never raises, is 0 below two samples and is never negative |
| Stats.SquaredDeviationsNonNegative | stat_helper.py:52-54 | the accumulated `s` of the loop is never negative |
| Stats.SquaredDeviationsZero | stat_helper.py:52-54 | the accumulated `s` is zero exactly when every sample equals the mean |
| Stats.SquaredDeviationsShift | stat_helper.py:52-54 | moving every sample and the mean by the same amount leaves the accumulated `s` unchanged |
| Stats.VarianceShift | stat_helper.py:42-56 | moving every sample by the same amount leaves the variance unchanged |
| Stats.VarianceZeroIffConstant | stat_helper.py:42-56 | with two or more samples the variance is zero exactly when all samples are equal |
| Stats.StatSd | stat.py:51-52 | `math.sqrt` always receives a non-negative variance, so `stat.py`'s `sd` never raises, even on the empty list |
| Stats.HelperSd | stat_helper.py:59-61 | `stat_helper.py`'s `sd` raises UnboundLocalError on every input, so its result never equals that of `stat.py`'s `sd` |
| Stats.SdCopiesDisagree | stat_helper.py:59-61 | `stat_helper.py`'s `sd` raises UnboundLocalError on every input, while `stat.py`'s hands the variance to `math.sqrt` without raising |
| Stats.RunningVariance | walk.py:187-193 | entry `i` of the running-variance list is the variance of the first `i + 1` positions of the walk |
| Stats.RunningVarianceShape | stoch_walk.py:108-115 | the running variance starts at 0 and is never negative. For a walk that never moves it is 0 throughout |
| MovingAverage.ChunkAverages | stat_helper.py:77-78 | the averages succeed exactly when no chunk is empty, and entry `t` is the mean of chunk `t` |
| MovingAverage.DayCounts | stat_helper.py:75-81 | `day_count` after `t + 1` iterations counts the elements of the last `t + 1` chunks, although it walks `split` from the back while `sma_Y` walks it from the front |
| MovingAverage.Sma | stat_helper.py:64-86 | `sma` raises exactly for a zero period or a negative period not dividing the length. Otherwise `X` and `Y` have the same length, `X` is empty exactly for empty data, and its last entry is the data length |
| MovingAverage.SmaChronological | stat_helper.py:64-86 | `sma` fails exactly as `partition_set` does on the reversed data. Otherwise it cuts the data into consecutive chronological chunks: the oldest is the short remainder, then chunks of `abs(period)`. `X[k]` is the 1-based end of chunk `k`, the last one being the length of the data, and `Y[k]` is the mean of that chunk |
| MovingAverage.SmaEnds | stat_helper.py:75-81 | the day counts are `abs(period)` apart, start at the remainder's size and end at the data length |
| MovingAverage.SmaMeans | stat_helper.py:77-84 | after re-reversal, `Y[k]` is the mean of the data between `X[k-1]` and `X[k]` |
| Steps.Positions | walk.py:47-48 | `view_walk` (in both walk classes) has one entry more than there are generated positions: the start value, possibly `None`, then each generated position in order |
| Steps.Step | walk.py:107-117 | a step changes the position by the signed magnitude. For a positive magnitude the walk rises exactly when the decision is below the probability |
| Steps.Extend | walk.py:80-117 | the appended positions are one per draw, each a step from the one before, the first from the current value |
| Steps.ExtendShift | walk.py:80-117 | the same draws taken from a current value moved by `c` give every generated position moved by `c` |
| Steps.ExtendAppend | walk.py:57-117 | two successive `generate_walk` runs give the same positions as one run over both draw sequences, since the second starts at the first's last position |
| Steps.ExtendIntegral | walk.py:107-117 | in `randint` mode a walk from an integer start stays on the integers |
| RandomWalk.GenerateWalk | walk.py:58-117 | `generate_walk` raises exactly when it takes a step and the first step fails. The causes are a `None` interval (AttributeError), bounds `randint` rejects (ValueError), or a `None` probability or current value (TypeError). It then leaves the object untouched. Otherwise it appends `max(num_steps - 1, 0)` positions, namely the steps the draws lead to from the current value. It grows `size` by as many, never stores its parameters, and keeps a valid walk valid |
| RandomWalk.GenerateWalkWithDefaults | walk.py:58 | with the default `Interval(-1, 1)`, probability 0.5 and integer steps, `generate_walk` fails only on a walk without a current value |
| RandomWalk.NewWalk | walk.py:11-44 | the constructor raises only "Missing Parameters." or ValueError. A walk it returns is valid and keeps the start value |
| RandomWalk.NewWalkOutcome | walk.py:11-44 | the constructor raises "Missing Parameters." exactly for a nonzero size with a `None` parameter. It raises ValueError exactly when it takes a step with bounds `randint` rejects, and it raises nothing else. Otherwise the walk is valid, keeps its parameters and holds `max(size, 1)` positions, which `size` counts except for a size-0 walk |
| RandomWalk.NewWalkSteps | walk.py:11-44 | a constructed walk of size 2 or more holds exactly the positions the draws lead to from the start value, and `size` equals the requested size |
| RandomWalk.RegenerateWalkAsWritten | walk.py:120-133 | `regenerate_walk` as written keeps the start value and replays the constructor's interval, probability and `uniform` flag. It raises exactly when `size` is above 2 and the first step fails, with `generate_walk`'s exception. Otherwise, for `size` above 2, the positions after the start are the steps the first `size - 2` draws lead to from the start value with the stored probability. Unless it raises, it rebuilds `max(size - 1, 1)` positions and `size` counts them. When it raises, the walk is left reset to the start value alone, with `size` 1 |
| RandomWalk.RegenerateShrinks | walk.py:120-133 | regenerating a walk of `n >= 2` positions as written leaves `n - 1` positions and `size` `n - 1` |
| RandomWalk.RegenerateShrinksExample | walk.py:120-133 | a concrete 3-position walk `[0, 1, 2]` comes back as `[0, 1]` |
| RandomWalk.RegenerateWalk | walk.py:120-133 | the corrected regeneration keeps the start value and replays the constructor's parameters. It raises exactly when `size` is above 1 and the first step fails, with `generate_walk`'s exception. Otherwise, for `size` above 1, the positions after the start are the steps the first `size - 1` draws lead to from the start value with the stored probability. Unless it raises, `size` counts the positions and keeps its value when it was 2 or more (1 otherwise). When it raises, the walk is left reset to the start value alone, with `size` 1 |
| RandomWalk.RegenerateKeepsSize | walk.py:120-133 | for a valid walk whose `size` counts its positions, the corrected regeneration restarts from the start value with the stored parameters. It raises exactly when `size` is 2 or more and the first step fails. Otherwise it rebuilds a valid walk with as many positions and the same `size`, its positions being the steps the draws lead to from the start value with the stored probability |
| RandomWalk.GetStepDiff | walk.py:137-148 | `get_stepdiff` is `None` exactly below size 2, and otherwise holds `size - 1` differences |
| RandomWalk.StepDiffTelescopes | walk.py:137-148 | the differences sum to the distance from the start to position `size - 1` |
| RandomWalk.StepDiffFollowsDraws | walk.py:137-148 | for a generated walk, difference `i` is draw `i`'s magnitude, added when its decision was below the probability and subtracted otherwise |
| RandomWalk.Direction | walk.py:155 | `value / abs(value)` is 1 for a positive and -1 for a negative value |
| RandomWalk.Directions | walk.py:152-156 | the loop divides by zero exactly when some difference is zero, and otherwise yields one direction per difference |
| RandomWalk.DirectionsAreSigns | walk.py:151-156 | each direction is 1 exactly for a rise and -1 exactly for a fall |
| RandomWalk.GetStepDirection | walk.py:151-156 | `get_step_direction` raises TypeError (iterating `None`) exactly below size 2. From size 2 on it may still raise ZeroDivisionError on a zero difference; when it succeeds it gives `size - 1` directions |
| RandomWalk.RunningVarianceIgnoresStart | walk.py:187-193 | the running variance `plot_walk` draws does not depend on the start value: the same draws from a start moved by `c` move every position by `c` and give the same variance for every prefix |
| RandomWalk.DirectionsFollowDecisions | walk.py:151-156 | for a generated walk with positive magnitudes, direction `i` is 1 exactly when decision `i` fell below the probability, and -1 otherwise |
| StochWalk.NewWalk | stoch_walk.py:4-13 | a new walk holds only its start value with `size` 1 and no stored parameters |
| StochWalk.GenerateWalk | stoch_walk.py:24-63 | `generate_walk` first adds `num_steps` to `size` and stores its parameters, so both changes survive an exception. It raises exactly when it takes a step and the first step fails. The causes are a `None` list (TypeError), a list of fewer than two entries (IndexError), bounds `randint` rejects (ValueError), or a `None` probability or current value (TypeError). Otherwise it appends `max(num_steps, 0)` positions after the old ones, namely the steps the draws lead to from the current value |
| StochWalk.GenerateKeepsValid | stoch_walk.py:24-63 | a call with `num_steps >= 0` that does not raise keeps `size` equal to the number of positions |
| StochWalk.RaisingCallLeavesSizeAhead | stoch_walk.py:28-36 | a call that raises leaves `size` larger than the walk by `num_steps`, so `size` no longer counts the positions |
| StochWalk.NegativeStepsShrinkSize | stoch_walk.py:28-36 | a negative `num_steps` takes no step but lowers `size` below the number of positions |
| StochWalk.RegenerateWalk | stoch_walk.py:67-80 | regeneration raises exactly when `size` is 2 or more and the first step with the last call's parameters fails, with `generate_walk`'s exception. It restarts from the start value and keeps `size`, since `generate_walk` adds back the `size - 1` it is passed even when it raises. Unless it raises it rebuilds `max(size, 1)` positions; when it raises the walk holds the start value alone |
| StochWalk.RegenerateKeepsSize | stoch_walk.py:67-80 | regeneration replays the stored parameters and keeps `size`. Unless it raises, it rebuilds a valid walk with as many positions, namely the positions the draws lead to from the start value |
| StochWalk.DefaultStepsAreUnit | stoch_walk.py:24-63 | with the default list `[1, 1]`, probability 0.5 and integer steps, a walk with a current value never raises. Every step moves by exactly one unit, and from an integer value every position stays an integer |

## Left out

- Plotting (`plot_walk`'s matplotlib calls) is left out because it is output only. The running-variance loop it contains is modelled; its volatility loop is the same loop under `math.sqrt`.
- `math.sqrt` is left out because Dafny has no real square root. `StatSd` yields the argument that reaches `math.sqrt` and proves it is non-negative.
- Randomness is left out: `rd.uniform` and `rd.randint` become a sequence of `Draw` values passed in. `DrawFits` says which draws the generators can produce, and lemmas that depend on it take it as a hypothesis.
- `rd.randint` is modelled as raising ValueError for non-integral or reversed bounds, as Python 3.11 and earlier do. Python 3.12 raises TypeError for non-integer arguments instead.
- Floating point rounding is left out: positions, means and variances are exact reals.
- The scale law of the variance, `variance([k * x for x in s]) == k * k * variance(s)`, is not stated. Its proof over exact reals rests on nonlinear real arithmetic that the solver does not settle reliably. The shift law (`Stats.VarianceShift`) is stated instead.
- `view_walk_np`, `convert_set_np`, `Interval.to_np`, `Interval.__repr__` and `Interval.__str__` are left out because they only wrap or format values with numpy or strings.
- `get_Ylistregress` and `get_normal` are left out because they call into scipy.
- `get_size` is left out because it is a plain field read (`size` in the model).
- The counters `count_over` and `count_under` are left out because they are never read.
- The market-data files (`price_data.py`, `price_data_config.py`, `pricing.py`, `walk_market_join.py`) are not part of this model.
- `stat.py` has its own `generate_X`, `partition_set`, `average`, `variance` and `sma`, and `partition.py` its own `partition_set`. They differ from `stat_helper.py`'s only in layout, comments and type hints, and compute the same values. Each is modelled once; only the two `sd` functions differ and get separate members.
- Values that Python does not type-check but the model does are left out. Examples are a string start value, or list entries that are not numbers. The model fixes positions to reals, so only `None` is modelled as a wrong value.
- Stats.RunningVariance: takes the positions as reals. The one walk with a `None` position is a walk of the single position `None`, whose running variance `[0]` is not covered.
- RandomWalk.GetStepDiff: requires `Valid`, the invariant every constructed walk keeps (proved by `GenerateWalk` and `NewWalkOutcome`). An object whose fields were assigned by hand is not covered.
- RandomWalk.GetStepDirection: requires `Valid` for the same reason, as it calls `get_stepdiff`.

## Findings

| source | as written | input that shows it | evidently intended | confidence | as-written member | corrected member |
|---|---|---|---|---|---|---|
| walk.py:120-133 | `regenerate_walk` calls `generate_walk(size - 1, ...)`, and `generate_walk` takes `num_steps - 1` steps, so the walk loses one position per call | a walk `[0, 1, 2]` of size 3 comes back as two positions | regeneration rebuilds as many positions as before, passing `size` | not executed | RandomWalk.RegenerateShrinks | RandomWalk.RegenerateKeepsSize |
| stat_helper.py:59-61 | the assignment `variance = variance(data_set)` makes `variance` a local name, so the call on its right-hand side raises UnboundLocalError | any list, e.g. `[1.0, 2.0]` | the square root of the sample variance, as `stat.py`'s `sd` computes it | not executed | Stats.SdCopiesDisagree | Stats.StatSd |


=== FILE: errors.dfy ===
/** Failure-carrying values shared by the whole model: the exceptions the
    Python code raises become `Failure` values instead of control flow. */
module Errors {

  /** `None` stands for Python's `None`; `Some(v)` for a present value. */
  datatype Option<+T> = None | Some(value: T)

  /** The Python exception kinds the modelled code can raise. `MissingParameters`
      is the plain `Exception("Missing Parameters.")` of the walk constructor. */
  datatype Error =
    | ZeroDivisionError
    | IndexError
    | TypeError
    | AttributeError
    | ValueError
    | UnboundLocalError
    | MissingParameters

  /** Either the value a call returns or the exception it raises. */
  datatype Result<+T> = Success(value: T) | Failure(error: Error)

  /** The state an object is left in by a mutating method, and the exception
      the method raised, if any: Python keeps every assignment made before
      the exception. */
  datatype Outcome<+S> = Outcome(state: S, raised: Option<Error>)
}

=== FILE: interval.dfy ===
/** The step-magnitude range of interval.py: two bounds and two inclusivity
    flags, fixed at construction. */
module Intervals {

  /** A record of two bounds and two flags; nothing relates the bounds. */
  datatype Interval = Interval(
    lowerBound: real,
    upperBound: real,
    lowerInclusive: bool,
    upperInclusive: bool)

  /** The constructor `Interval(lower_bound, upper_bound, lower_inclusive=True,
      upper_inclusive=True)`: every pair of bounds is accepted as given, a
      reversed pair included, and the getters hand the bounds back. */
  function NewInterval(lowerBound: real, upperBound: real,
                       lowerInclusive: bool := true,
                       upperInclusive: bool := true): (r: Interval)
    ensures LowerBound(r) == lowerBound && UpperBound(r) == upperBound
    ensures r.lowerInclusive == lowerInclusive && r.upperInclusive == upperInclusive
  {
    Interval(lowerBound, upperBound, lowerInclusive, upperInclusive)
  }

  /** `get_lower_bound`. */
  function LowerBound(i: Interval): real
  {
    i.lowerBound
  }

  /** `get_upper_bound`. */
  function UpperBound(i: Interval): real
  {
    i.upperBound
  }
}

=== FILE: partition.dfy ===
/** `partition_set` (partition.py, and the identical copies in stat_helper.py
    and stat.py): cut a list into consecutive chunks of `n`, any short
    remainder forming one final chunk. */
module Partition {
  import opened Errors
  import PyInt

  /** The concatenation of a list of chunks. */
  function Flatten<T>(chunks: seq<seq<T>>): seq<T>
  {
    if |chunks| == 0 then [] else chunks[0] + Flatten(chunks[1..])
  }

  /** Splitting the list of chunks anywhere splits the concatenation there. */
  lemma {:induction false} FlattenSplit<T>(chunks: seq<seq<T>>, j: nat)
    requires j <= |chunks|
    ensures Flatten(chunks) == Flatten(chunks[..j]) + Flatten(chunks[j..])
    decreases j
  {
    if j == 0 {
      assert chunks[..0] == [];
      assert chunks[0..] == chunks;
    } else {
      FlattenSplit(chunks[1..], j - 1);
      assert chunks[1..][..j - 1] == chunks[..j][1..];
      assert chunks[1..][j - 1..] == chunks[j..];
    }
  }

  /** Reference chunking for a positive chunk size: full chunks of `n` from the
      front, then what is left (1 to `n` elements) as the last chunk. */
  function Chunks<T>(lst: seq<T>, n: int): seq<seq<T>>
    requires n >= 1
    decreases |lst|
  {
    if |lst| == 0 then []
    else if |lst| <= n then [lst]
    else [lst[..n]] + Chunks(lst[n..], n)
  }

  /** `partition_set(lst, n)` for every integer `n`. `n == 0` divides by zero
      when computing the border; a negative `n` chunks by `|n|` when `|n|`
      divides the length, and otherwise the border lies past the end of the
      list, so the loop indexes out of range. */
  function PartitionSet<T>(lst: seq<T>, n: int): (r: Result<seq<seq<T>>>)
    ensures r.Failure? <==> n == 0 || (n < 0 && |lst| % (-n) != 0)
    ensures r.Success? ==> Flatten(r.value) == lst
    ensures r.Success? ==> forall k :: 0 <= k < |r.value| ==> |r.value[k]| > 0
  {
    if n == 0 then Failure(ZeroDivisionError)
    else if n > 0 then
      FlattenChunks(lst, n);
      ChunksShape(lst, n);
      Success(Chunks(lst, n))
    else if |lst| % (-n) == 0 then
      FlattenChunks(lst, -n);
      ChunksShape(lst, -n);
      Success(Chunks(lst, -n))
    else Failure(IndexError)
  }

  /** The loop of `partition_set` as written, including its Python `//` and `%`
      and the redundant guard `i+1%n != 0 or i==0`; it computes `PartitionSet`. */
  method PartitionSetLoop<T>(lst: seq<T>, n: int) returns (r: Result<seq<seq<T>>>)
    ensures r == PartitionSet(lst, n)
  {
    var length := |lst|;
    if n == 0 {
      return Failure(ZeroDivisionError);
    }
    var indexBorder := PyInt.FloorDiv(length, n) * n;
    var m := if n > 0 then n else -n;
    BorderFacts(length, n);
    var p: seq<T> := [];
    var finalP: seq<seq<T>> := [];
    var i := 0;
    while i < indexBorder
      invariant i <= indexBorder
      invariant LoopState(lst, m, i, p, finalP)
    {
      if i >= length {
        return Failure(IndexError);
      }
      IterationStep(lst, n, m, i, p, finalP);
      if PyInt.Mod(i + 1, n) == 0 {
        p := p + [lst[i]];
        finalP := finalP + [p];
        p := [];
        assert LoopState(lst, m, i + 1, p, finalP);
      } else if i + PyInt.Mod(1, n) != 0 || i == 0 {
        p := p + [lst[i]];
        assert LoopState(lst, m, i + 1, p, finalP);
      } else {
        assert false;
      }
      i := i + 1;
    }
    LoopExit(lst, m, i, p, finalP);
    LoopFinish(lst, n, finalP);
    if PyInt.Mod(length, n) != 0 {
      finalP := finalP + [lst[indexBorder..]];
    }
    return Success(finalP);
  }

  /** After the loop: the stray elements past the border, if any, form the
      last chunk, and the result is the reference chunking. */
  lemma LoopFinish<T>(lst: seq<T>, n: int, finalP: seq<seq<T>>)
    requires n != 0
    requires PyInt.FloorDiv(|lst|, n) * n <= |lst|
    requires finalP == Chunks(lst[..PyInt.FloorDiv(|lst|, n) * n], if n > 0 then n else -n)
    ensures var border := PyInt.FloorDiv(|lst|, n) * n;
            PartitionSet(lst, n)
            == Success(if PyInt.Mod(|lst|, n) != 0 then finalP + [lst[border..]] else finalP)
  {
    var m := if n > 0 then n else -n;
    var border := PyInt.FloorDiv(|lst|, n) * n;
    BorderFacts(|lst|, n);
    if PyInt.Mod(|lst|, n) != 0 {
      ChunksAppend(lst[..border], lst[border..], m);
      assert lst[..border] + lst[border..] == lst;
    } else {
      assert lst[..border] == lst;
    }
  }

  /** What the loop keeps after `i` iterations: `p` holds the elements of the
      chunk being filled (fewer than `m`) and `finalP` the full chunks before
      it, which end at a multiple of `m`. */
  ghost predicate LoopState<T>(lst: seq<T>, m: int, i: int, p: seq<T>, finalP: seq<seq<T>>)
  {
    && m >= 1 && |p| < m && |p| <= i <= |lst|
    && (i - |p|) % m == 0
    && p == lst[i - |p|..i]
    && finalP == Chunks(lst[..i - |p|], m)
  }

  /** One iteration: element `i` closes the chunk when it is its `m`-th
      element and otherwise extends it. */
  lemma LoopStep<T>(lst: seq<T>, m: int, i: int, p: seq<T>, finalP: seq<seq<T>>)
    requires LoopState(lst, m, i, p, finalP) && i < |lst|
    ensures |p| + 1 == m ==> LoopState(lst, m, i + 1, [], finalP + [p + [lst[i]]])
    ensures |p| + 1 < m ==> LoopState(lst, m, i + 1, p + [lst[i]], finalP)
  {
    var q := p + [lst[i]];
    assert q == lst[i - |p|..i + 1];
    if |p| + 1 == m {
      PyInt.ModSubtract(i + 1, m);
      ChunksAppend(lst[..i - |p|], q, m);
      assert lst[..i - |p|] + q == lst[..i + 1];
    }
  }

  /** One iteration in the loop's own terms: Python's `(i+1) % n == 0` decides
      between closing and extending the chunk, and the stray guard holds
      whenever it is reached. */
  lemma IterationStep<T>(lst: seq<T>, n: int, m: int, i: int, p: seq<T>, finalP: seq<seq<T>>)
    requires n != 0 && m == (if n > 0 then n else -n)
    requires LoopState(lst, m, i, p, finalP) && i < |lst|
    ensures PyInt.Mod(i + 1, n) == 0 ==> LoopState(lst, m, i + 1, [], finalP + [p + [lst[i]]])
    ensures PyInt.Mod(i + 1, n) != 0 ==>
              (i + PyInt.Mod(1, n) != 0 || i == 0) && LoopState(lst, m, i + 1, p + [lst[i]], finalP)
  {
    LoopStep(lst, m, i, p, finalP);
    PyInt.OffsetInBlock(i, m, |p|);
    PyInt.ModZeroIff(i + 1, n);
    if PyInt.Mod(i + 1, n) != 0 {
      StrayGuardHolds(i, n);
    }
  }

  /** At the border (a multiple of `m`) no chunk is half filled. */
  lemma LoopExit<T>(lst: seq<T>, m: int, i: int, p: seq<T>, finalP: seq<seq<T>>)
    requires LoopState(lst, m, i, p, finalP) && i % m == 0
    ensures p == [] && finalP == Chunks(lst[..i], m)
  {
    PyInt.OffsetInBlock(i, m, |p|);
  }

  /** The border `(len // n) * n`: for `n > 0` the largest multiple of `n` not
      past the end; for `n < 0` the smallest multiple of `|n|` not before the
      end, which lies past the end exactly when `|n|` does not divide `len`. */
  lemma BorderFacts(length: nat, n: int)
    requires n != 0
    ensures var m := if n > 0 then n else -n;
            var b := PyInt.FloorDiv(length, n) * n;
            && b >= 0 && b % m == 0
            && (n > 0 ==> b == length - length % m)
            && (n < 0 && length % m == 0 ==> b == length)
            && (n < 0 && length % m != 0 ==> b > length)
            && (PyInt.Mod(length, n) == 0 <==> length % m == 0)
  {
    var m := if n > 0 then n else -n;
    PyInt.DivModIdentity(length, n);
    PyInt.ModZeroIff(length, n);
    var b := PyInt.FloorDiv(length, n) * n;
    assert length == m * (length / m) + length % m;
    if n > 0 {
      PyInt.DivModUnique(b, m, length / m, 0);
    } else if length % m == 0 {
      PyInt.DivModUnique(b, m, length / m, 0);
    } else {
      PyInt.DivModUnique(b, m, length / m + 1, 0);
    }
  }

  /** The guard `i+1%n != 0 or i==0` parses as `i + (1 % n) != 0 or i == 0`;
      wherever the loop reaches it (`(i+1) % n != 0`), it holds. */
  lemma StrayGuardHolds(i: nat, n: int)
    requires n != 0
    requires PyInt.Mod(i + 1, n) != 0
    ensures i + PyInt.Mod(1, n) != 0 || i == 0
  {
    PyInt.ModOne(n);
    if n <= -2 && i + 1 + n == 0 {
      PyInt.DivModUnique(i + 1, -n, 1, 0);
      PyInt.ModZeroIff(i + 1, n);
    }
  }

  /** Appending one chunk of at most `n` elements to a whole number of full
      chunks appends exactly that chunk. */
  lemma {:induction false} ChunksAppend<T>(a: seq<T>, b: seq<T>, n: int)
    requires n >= 1 && |a| % n == 0 && 1 <= |b| <= n
    ensures Chunks(a + b, n) == Chunks(a, n) + [b]
    decreases |a|
  {
    if |a| == 0 {
      assert a + b == b;
    } else {
      PyInt.ModSubtract(|a|, n);
      if |a| < n {
        PyInt.DivModUnique(|a|, n, 0, |a|);
      }
      assert (a + b)[..n] == a[..n];
      assert (a + b)[n..] == a[n..] + b;
      ChunksAppend(a[n..], b, n);
      if |a| == n {
        assert a[n..] == [];
      }
    }
  }

  /** Concatenating the chunks gives the list back. */
  lemma {:induction false} FlattenChunks<T>(lst: seq<T>, n: int)
    requires n >= 1
    ensures Flatten(Chunks(lst, n)) == lst
    decreases |lst|
  {
    if |lst| == 0 {
    } else if |lst| <= n {
      assert Flatten(Chunks(lst, n)) == lst + Flatten([]);
    } else {
      var rest := Chunks(lst[n..], n);
      FlattenChunks(lst[n..], n);
      assert ([lst[..n]] + rest)[1..] == rest;
      assert lst[..n] + lst[n..] == lst;
    }
  }

  /** Every chunk but the last has exactly `n` elements, the last has 1 to
      `n`, the last is the tail of the list, and the length is
      `(chunks - 1) * n` plus the last chunk's length. */
  lemma ChunkLengths<T>(lst: seq<T>, n: int)
    requires n >= 1
    ensures var r := Chunks(lst, n);
            && (r == [] <==> lst == [])
            && (forall k :: 0 <= k < |r| - 1 ==> |r[k]| == n)
            && (r != [] ==> 1 <= |r[|r| - 1]| <= n
                            && |lst| == (|r| - 1) * n + |r[|r| - 1]|
                            && r[|r| - 1] == lst[|lst| - |r[|r| - 1]|..])
  {
    FullChunks(lst, n);
    LastChunkTail(lst, n);
    LastChunkCount(lst, n);
  }

  /** Every chunk but the last has exactly `n` elements. */
  lemma {:induction false} FullChunks<T>(lst: seq<T>, n: int)
    requires n >= 1
    ensures forall k :: 0 <= k < |Chunks(lst, n)| - 1 ==> |Chunks(lst, n)[k]| == n
    decreases |lst|
  {
    if |lst| > n {
      var rest := Chunks(lst[n..], n);
      FullChunks(lst[n..], n);
      var r := [lst[..n]] + rest;
      assert r == Chunks(lst, n);
      forall k | 0 <= k < |r| - 1
        ensures |r[k]| == n
      {
        if k > 0 {
          assert r[k] == rest[k - 1];
        }
      }
    }
  }

  /** The last chunk is a tail of the list of 1 to `n` elements. */
  lemma {:induction false} LastChunkTail<T>(lst: seq<T>, n: int)
    requires n >= 1
    ensures |Chunks(lst, n)| > 0 ==> 1 <= |Chunks(lst, n)[|Chunks(lst, n)| - 1]| <= n
    ensures |Chunks(lst, n)| > 0 ==>
              Chunks(lst, n)[|Chunks(lst, n)| - 1]
              == lst[|lst| - |Chunks(lst, n)[|Chunks(lst, n)| - 1]|..]
    decreases |lst|
  {
    if |lst| > n {
      var tail := lst[n..];
      var rest := Chunks(tail, n);
      LastChunkTail(tail, n);
      assert Chunks(lst, n) == [lst[..n]] + rest;
      var last := rest[|rest| - 1];
      assert last == tail[|tail| - |last|..];
      assert tail[|tail| - |last|..] == lst[|lst| - |last|..];
    }
  }

  /** The length is `chunks - 1` blocks of `n` plus the last chunk. */
  lemma {:induction false} LastChunkCount<T>(lst: seq<T>, n: int)
    requires n >= 1
    ensures Chunks(lst, n) != [] ==>
              |lst| == (|Chunks(lst, n)| - 1) * n + |Chunks(lst, n)[|Chunks(lst, n)| - 1]|
    decreases |lst|
  {
    if |lst| > n {
      var rest := Chunks(lst[n..], n);
      LastChunkCount(lst[n..], n);
      assert Chunks(lst, n) == [lst[..n]] + rest;
      MultipleStep(|rest| - 1, n);
    }
  }

  /** One more block of `n`: `a * n + n == (a + 1) * n`. */
  lemma MultipleStep(a: int, n: int)
    ensures a * n + n == (a + 1) * n
  {
  }

  /** There are `ceil(len / n)` chunks. */
  lemma ChunksCount<T>(lst: seq<T>, n: int)
    requires n >= 1
    ensures |Chunks(lst, n)| == (|lst| + n - 1) / n
  {
    var r := Chunks(lst, n);
    ChunkLengths(lst, n);
    var c := |r|;
    if c == 0 {
      PyInt.DivModUnique(n - 1, n, 0, n - 1);
    } else {
      var last := |r[c - 1]|;
      var full := (c - 1) * n;
      assert full + n == n * c;
      PyInt.DivModUnique(|lst| + n - 1, n, c, last - 1);
    }
  }

  /** The final chunk is `lst[(len // n) * n ..]` of length `len % n` when `n`
      does not divide `len`, and a full chunk otherwise. */
  lemma ChunksRemainder<T>(lst: seq<T>, n: int)
    requires n >= 1 && lst != []
    ensures var r := Chunks(lst, n);
            && r != []
            && (|lst| % n == 0 ==> |r[|r| - 1]| == n)
            && (|lst| % n != 0 ==> |r[|r| - 1]| == |lst| % n
                                   && r[|r| - 1] == lst[(|lst| / n) * n..])
  {
    var r := Chunks(lst, n);
    ChunkLengths(lst, n);
    RemainderArithmetic(|lst|, n, |r|, |r[|r| - 1]|);
  }

  /** `len == (c - 1) * n + last` with `1 <= last <= n` fixes `len % n` and
      `len // n` in terms of the last chunk. */
  lemma RemainderArithmetic(len: int, n: int, c: int, last: int)
    requires n >= 1 && c >= 1 && 1 <= last <= n && len == (c - 1) * n + last
    ensures len % n == 0 <==> last == n
    ensures last < n ==> len % n == last && (len / n) * n == len - last
  {
    if last == n {
      PyInt.DivModUnique(len, n, c, 0);
    } else {
      PyInt.DivModUnique(len, n, c - 1, last);
    }
  }

  /** The shape of a partition: `ceil(len / n)` chunks, all of length `n`
      except a final chunk of length `len % n` when `n` does not divide `len`,
      which is then `lst[(len // n) * n ..]`; no chunk is empty, and the empty
      list gives no chunks. */
  lemma ChunksShape<T>(lst: seq<T>, n: int)
    requires n >= 1
    ensures var r := Chunks(lst, n);
            && |r| == (|lst| + n - 1) / n
            && (r == [] <==> lst == [])
            && (forall k :: 0 <= k < |r| ==> |r[k]| > 0)
            && (forall k :: 0 <= k < |r| - 1 ==> |r[k]| == n)
            && (|lst| % n == 0 ==> forall k :: 0 <= k < |r| ==> |r[k]| == n)
            && (|lst| % n != 0 ==> |r[|r| - 1]| == |lst| % n
                                   && r[|r| - 1] == lst[(|lst| / n) * n..])
  {
    ChunkLengths(lst, n);
    ChunksCount(lst, n);
    if lst != [] {
      ChunksRemainder(lst, n);
    }
  }

  /** `partition_set` fails exactly for `n == 0` (ZeroDivisionError) and for a
      negative `n` whose magnitude does not divide the length (IndexError);
      otherwise its chunks concatenate back to the input. */
  lemma PartitionSetOutcome<T>(lst: seq<T>, n: int)
    ensures PartitionSet(lst, n) == Failure(ZeroDivisionError) <==> n == 0
    ensures PartitionSet(lst, n) == Failure(IndexError) <==> n < 0 && |lst| % (-n) != 0
    ensures PartitionSet(lst, n).Success? ==> Flatten(PartitionSet(lst, n).value) == lst
  {
    if n > 0 {
      FlattenChunks(lst, n);
    } else if n < 0 && |lst| % (-n) == 0 {
      FlattenChunks(lst, -n);
    }
  }
}

=== FILE: pyint.dfy ===
/** Python's integer `//` and `%`, which round toward negative infinity,
    written over Dafny's Euclidean `/` and `%`. */
module PyInt {

  /** `x // d` in Python. */
  function FloorDiv(x: int, d: int): int
    requires d != 0
  {
    if d > 0 then x / d
    else if x % (-d) == 0 then -(x / (-d))
    else -(x / (-d)) - 1
  }

  /** `x % d` in Python: zero or of the sign of `d`. */
  function Mod(x: int, d: int): (r: int)
    requires d != 0
    ensures d > 0 ==> 0 <= r < d
    ensures d < 0 ==> d < r <= 0
  {
    if d > 0 then x % d
    else if x % (-d) == 0 then 0
    else x % (-d) + d
  }

  /** Python's division identity `x == (x // d) * d + x % d`. */
  lemma DivModIdentity(x: int, d: int)
    requires d != 0
    ensures FloorDiv(x, d) * d + Mod(x, d) == x
  {
    if d < 0 {
      var m := -d;
      assert x == m * (x / m) + x % m;
    }
  }

  /** Python's `x % d` is zero exactly when `|d|` divides `x`. */
  lemma ModZeroIff(x: int, d: int)
    requires d != 0
    ensures Mod(x, d) == 0 <==> x % (if d > 0 then d else -d) == 0
  {
  }

  /** Euclidean quotient and remainder are unique. */
  lemma DivModUnique(x: int, m: int, q: int, r: int)
    requires m > 0 && 0 <= r < m && x == m * q + r
    ensures x / m == q && x % m == r
  {
    var d := q - x / m;
    assert m * d == x % m - r;
  }

  /** If `i` lies `k` places into a block of `m` (so `i - k` is a multiple of
      `m`), then `i % m` is `k`, and `i + 1` starts a new block exactly when
      `k` is the block's last place. */
  lemma OffsetInBlock(i: int, m: int, k: int)
    requires m >= 1 && 0 <= k < m && (i - k) % m == 0
    ensures i % m == k
    ensures (i + 1) % m == 0 <==> k + 1 == m
  {
    var q := (i - k) / m;
    assert i - k == m * q + (i - k) % m;
    DivModUnique(i, m, q, k);
    if k + 1 < m {
      DivModUnique(i + 1, m, q, k + 1);
    } else {
      DivModUnique(i + 1, m, q + 1, 0);
    }
  }

  /** Removing one multiple of `m` keeps the remainder and lowers the quotient by one. */
  lemma ModSubtract(x: int, m: int)
    requires m > 0
    ensures (x - m) % m == x % m
    ensures (x - m) / m == x / m - 1
  {
    assert x == m * (x / m) + x % m;
    DivModUnique(x - m, m, x / m - 1, x % m);
  }

  /** `Mod(1, d)`: 0 for `d` = 1 or -1, 1 for `d` >= 2 and `1 + d` for `d` <= -2. */
  lemma ModOne(d: int)
    requires d != 0
    ensures d == 1 || d == -1 ==> Mod(1, d) == 0
    ensures d >= 2 ==> Mod(1, d) == 1
    ensures d <= -2 ==> Mod(1, d) == 1 + d
  {
    var m := if d > 0 then d else -d;
    if m == 1 {
      DivModUnique(1, 1, 1, 0);
    } else {
      DivModUnique(1, m, 0, 1);
    }
  }
}

=== FILE: sma.dfy ===
/** `sma` of stat_helper.py (repeated in stat.py): a simple moving average
    computed by cutting the reversed data into chunks of `period` days. */
module MovingAverage {
  import opened Errors
  import opened Partition
  import opened Stats

  /** The averages of the chunks in order, as `sma` appends them to `sma_Y`;
      an empty chunk would make `average` divide by zero. */
  function ChunkAverages(split: seq<seq<real>>): (r: Result<seq<real>>)
    ensures r.Success? <==> forall t :: 0 <= t < |split| ==> |split[t]| > 0
    ensures r.Success? ==> |r.value| == |split|
                           && forall t :: 0 <= t < |split| ==> Average(split[t]) == Success(r.value[t])
  {
    if |split| == 0 then Success([])
    else match (Average(split[0]), ChunkAverages(split[1..]))
      case (Success(a), Success(rest)) => Success([a] + rest)
      case (Failure(e), _) => Failure(e)
      case (_, Failure(e)) => Failure(e)
  }

  /** `sma_X` as `sma` builds it: `day_count` grows by `len(split[x_index])`
      with `x_index` running -1, -2, ..., so entry `t` counts the elements of
      the last `t + 1` chunks. */
  function DayCounts<T>(split: seq<seq<T>>): (xs: seq<int>)
    ensures |xs| == |split|
    ensures forall t :: 0 <= t < |split| ==> xs[t] == |Flatten(split[|split| - 1 - t..])|
    decreases |split|
  {
    if |split| == 0 then []
    else
      assert split[0..] == split;
      DayCounts(split[1..]) + [|Flatten(split)|]
  }

  /** `sma(data_set, period)`: reverse the data, partition it by `period`,
      average each chunk, count days from the last chunk backwards, and
      re-reverse the averages. */
  function Sma(data: seq<real>, period: int): (r: Result<(seq<int>, seq<real>)>)
    ensures r.Failure? <==> period == 0 || (period < 0 && |data| % (-period) != 0)
    ensures r.Success? ==> |r.value.0| == |r.value.1|
    ensures r.Success? ==> (r.value.0 == [] <==> data == [])
    ensures r.Success? && data != [] ==> r.value.0[|r.value.0| - 1] == |data|
  {
    match PartitionSet(Reverse(data), period)
    case Failure(e) => Failure(e)
    case Success(split) =>
      match ChunkAverages(split)
      case Failure(e) => Failure(e)
      case Success(averages) => Success((DayCounts(split), Reverse(averages)))
  }

  /** Where chunk `k` of the series starts: 0, then the previous end. */
  function ChunkStart(xs: seq<int>, k: int): int
    requires 0 <= k < |xs|
  {
    if k == 0 then 0 else xs[k - 1]
  }

  /** The day counts of `sma`, read chronologically: one per chunk, the last
      being the length of the data, the first the size of the short (oldest)
      remainder chunk, and `n` apart in between. */
  ghost predicate SeriesEnds(data: seq<real>, n: int, xs: seq<int>)
    requires n >= 1
  {
    && |xs| == (|data| + n - 1) / n
    && (|xs| > 0 ==> xs[|xs| - 1] == |data|)
    && (|xs| > 0 ==> xs[0] == if |data| % n == 0 then n else |data| % n)
    && (forall k :: 1 <= k < |xs| ==> xs[k] - xs[k - 1] == n)
  }

  /** `ys[k]` is the mean of the data between the previous day count and
      `xs[k]`, a non-empty slice. */
  ghost predicate SeriesMeans(data: seq<real>, xs: seq<int>, ys: seq<real>)
  {
    && |ys| == |xs|
    && forall k :: 0 <= k < |xs| ==>
         0 <= ChunkStart(xs, k) < xs[k] <= |data|
         && Average(data[ChunkStart(xs, k)..xs[k]]) == Success(ys[k])
  }

  /** What `sma` computes, read chronologically: consecutive chunks of `data`
      in time order, the oldest one being the short remainder; `xs[k]` is the
      1-based end position of chunk `k` and `ys[k]` its mean. */
  ghost predicate ChronologicalSeries(data: seq<real>, n: int, xs: seq<int>, ys: seq<real>)
    requires n >= 1
  {
    SeriesEnds(data, n, xs) && SeriesMeans(data, xs, ys)
  }

  /** `sma` fails exactly as `partition_set` does on the reversed data (a zero
      period, or a negative period not dividing the length) and otherwise
      yields the chronological chunk ends and means. */
  lemma SmaChronological(data: seq<real>, period: int)
    ensures Sma(data, period) == Failure(ZeroDivisionError) <==> period == 0
    ensures Sma(data, period) == Failure(IndexError) <==> period < 0 && |data| % (-period) != 0
    ensures Sma(data, period).Success? ==>
              ChronologicalSeries(data, if period > 0 then period else -period,
                                  Sma(data, period).value.0, Sma(data, period).value.1)
  {
    if period != 0 && (period > 0 || |data| % (-period) == 0) {
      var n := if period > 0 then period else -period;
      var rev := Reverse(data);
      var split := Chunks(rev, n);
      assert PartitionSet(rev, period) == Success(split);
      ChunksShape(rev, n);
      var averages := ChunkAverages(split).value;
      SmaEnds(data, n, split);
      SmaMeans(data, n, split, averages);
    }
  }

  /** The day counts of the chunks of the reversed data are the chronological
      chunk ends. */
  lemma SmaEnds(data: seq<real>, n: int, split: seq<seq<real>>)
    requires n >= 1 && split == Chunks(Reverse(data), n)
    ensures SeriesEnds(data, n, DayCounts(split))
  {
    var xs := DayCounts(split);
    assert |xs| == (|data| + n - 1) / n by {
      ChunksCount(Reverse(data), n);
    }
    if |split| > 0 {
      assert xs[|split| - 1] == |data| by {
        FlattenChunks(Reverse(data), n);
        assert split[0..] == split;
      }
      SmaFirstEnd(data, n, split);
    }
    SmaEndsApart(data, n, split);
  }

  /** The first day count is the size of the oldest (remainder) chunk. */
  lemma SmaFirstEnd(data: seq<real>, n: int, split: seq<seq<real>>)
    requires n >= 1 && split == Chunks(Reverse(data), n) && |split| > 0
    ensures DayCounts(split)[0] == if |data| % n == 0 then n else |data| % n
  {
    DayCountStep(split, 0);
    ChunksShape(Reverse(data), n);
  }

  /** Successive day counts are `n` apart. */
  lemma SmaEndsApart(data: seq<real>, n: int, split: seq<seq<real>>)
    requires n >= 1 && split == Chunks(Reverse(data), n)
    ensures forall k :: 1 <= k < |split| ==> DayCounts(split)[k] - DayCounts(split)[k - 1] == n
  {
    forall k | 1 <= k < |split|
      ensures DayCounts(split)[k] - DayCounts(split)[k - 1] == n
    {
      DayCountStep(split, k);
      ChunkLengths(Reverse(data), n);
    }
  }

  /** The averages, re-reversed, are the means of the chronological chunks. */
  lemma SmaMeans(data: seq<real>, n: int, split: seq<seq<real>>, averages: seq<real>)
    requires n >= 1 && split == Chunks(Reverse(data), n)
    requires ChunkAverages(split) == Success(averages)
    ensures SeriesMeans(data, DayCounts(split), Reverse(averages))
  {
    var xs := DayCounts(split);
    FlattenChunks(Reverse(data), n);
    forall k | 0 <= k < |split|
      ensures 0 <= ChunkStart(xs, k) < xs[k] <= |data|
      ensures Average(data[ChunkStart(xs, k)..xs[k]]) == Success(Reverse(averages)[k])
    {
      SmaEntry(data, split, averages, k);
    }
  }

  /** Consecutive day counts differ by the size of the chunk counted in
      between: entry `k` adds chunk `split[K - 1 - k]`. */
  lemma DayCountStep<T>(split: seq<seq<T>>, k: int)
    requires 0 <= k < |split|
    ensures DayCounts(split)[k] - ChunkStart(DayCounts(split), k) == |split[|split| - 1 - k]|
  {
    var K := |split|;
    var j := K - 1 - k;
    var xs := DayCounts(split);
    assert xs[k] == |Flatten(split[j..])|;
    assert split[j..][1..] == split[j + 1..];
    assert Flatten(split[j..]) == split[j] + Flatten(split[j + 1..]);
    if k == 0 {
      assert split[K..] == [];
    } else {
      assert xs[k - 1] == |Flatten(split[j + 1..])|;
    }
  }

  /** Entry `k` of the series: the chunk `split[K - 1 - k]`, reversed, is the
      slice of `data` between the previous day count and this one. */
  lemma SmaEntry(data: seq<real>, split: seq<seq<real>>, averages: seq<real>, k: int)
    requires Flatten(split) == Reverse(data)
    requires ChunkAverages(split) == Success(averages)
    requires 0 <= k < |split|
    ensures var xs := DayCounts(split);
            && 0 <= ChunkStart(xs, k) <= xs[k] <= |data|
            && xs[k] - ChunkStart(xs, k) == |split[|split| - 1 - k]|
            && data[ChunkStart(xs, k)..xs[k]] == Reverse(split[|split| - 1 - k])
            && Average(data[ChunkStart(xs, k)..xs[k]]) == Success(Reverse(averages)[k])
  {
    var K := |split|;
    var j := K - 1 - k;
    ChunkOfReversed(data, split, j);
    if k == 0 {
      assert split[K..] == [];
    }
    AverageReverse(split[j]);
  }

  /** If the reversed data is cut into `split`, then chunk `j` of `split`,
      reversed, sits in `data` right before the part formed by the chunks that
      follow it (which reversed is a prefix of `data`). */
  lemma ChunkOfReversed(data: seq<real>, split: seq<seq<real>>, j: nat)
    requires j < |split| && Flatten(split) == Reverse(data)
    ensures var before := |Flatten(split[j + 1..])|;
            var after := |Flatten(split[j..])|;
            && after == before + |split[j]| <= |data|
            && data[before..after] == Reverse(split[j])
  {
    var tail := Flatten(split[j..]);
    var rest := Flatten(split[j + 1..]);
    FlattenSplit(split, j);
    assert split[j..] == [split[j]] + split[j + 1..];
    assert tail == split[j] + rest;
    ReverseAppend(Flatten(split[..j]), tail);
    ReverseReverse(data);
    ReverseAppend(split[j], rest);
    assert data == Reverse(rest) + Reverse(split[j]) + Reverse(Flatten(split[..j]));
  }
}

=== FILE: stats.dfy ===
/** The descriptive-statistics helpers of stat_helper.py. stat.py has its own
    `generate_X`, `partition_set`, `average`, `variance` and `sma`, which
    differ only in layout, comments and type hints and compute the same
    values, so one definition models both; the two `sd` functions differ
    and are modelled separately. Values are exact reals. */
module Stats {
  import opened Errors

  /** `generate_X(size)`, i.e. `list(range(1, size + 1))`. */
  function GenerateX(size: int): (r: seq<int>)
    ensures |r| == if size > 0 then size else 0
    ensures forall i :: 0 <= i < |r| ==> r[i] == i + 1
  {
    if size <= 0 then [] else GenerateX(size - 1) + [size]
  }

  /** Python's slice `s[::-1]`. */
  function Reverse<T>(s: seq<T>): (r: seq<T>)
    ensures |r| == |s|
    ensures forall i :: 0 <= i < |s| ==> r[i] == s[|s| - 1 - i]
  {
    if |s| == 0 then [] else [s[|s| - 1]] + Reverse(s[..|s| - 1])
  }

  /** Reversing twice gives the list back. */
  lemma ReverseReverse<T>(s: seq<T>)
    ensures Reverse(Reverse(s)) == s
  {
  }

  /** Reversing a concatenation swaps and reverses the parts. */
  lemma ReverseAppend<T>(a: seq<T>, b: seq<T>)
    ensures Reverse(a + b) == Reverse(b) + Reverse(a)
  {
  }

  /** Python's `sum`: a left-to-right fold starting at 0. */
  function Sum(s: seq<real>): real
  {
    if |s| == 0 then 0.0 else Sum(s[..|s| - 1]) + s[|s| - 1]
  }

  /** The sum of a concatenation is the sum of the sums. */
  lemma {:induction false} SumAppend(a: seq<real>, b: seq<real>)
    ensures Sum(a + b) == Sum(a) + Sum(b)
    decreases |b|
  {
    if |b| == 0 {
      assert a + b == a;
    } else {
      SumAppend(a, b[..|b| - 1]);
      assert (a + b)[..|a + b| - 1] == a + b[..|b| - 1];
    }
  }

  /** Grouping from the front, the first element plus the sum of the rest,
      gives the same value as the left-to-right fold. */
  lemma SumFront(s: seq<real>)
    requires |s| > 0
    ensures Sum(s) == s[0] + Sum(s[1..])
  {
    SumAppend([s[0]], s[1..]);
    assert [s[0]] + s[1..] == s;
  }

  /** Reversing a list keeps its sum. */
  lemma {:induction false} SumReverse(s: seq<real>)
    ensures Sum(Reverse(s)) == Sum(s)
    decreases |s|
  {
    if |s| > 0 {
      var init := s[..|s| - 1];
      SumReverse(init);
      assert Reverse(s) == [s[|s| - 1]] + Reverse(init);
      SumAppend([s[|s| - 1]], Reverse(init));
      assert [s[|s| - 1]][..0] == [];
    }
  }

  /** Elements between `lo` and `hi` sum to between `len * lo` and `len * hi`. */
  lemma {:induction false} SumBounds(s: seq<real>, lo: real, hi: real)
    requires forall i :: 0 <= i < |s| ==> lo <= s[i] <= hi
    ensures (|s| as real) * lo <= Sum(s) <= (|s| as real) * hi
    decreases |s|
  {
    if |s| > 0 {
      var init := s[..|s| - 1];
      var m := |init| as real;
      SumBounds(init, lo, hi);
      assert Sum(s) == Sum(init) + s[|s| - 1];
      assert m * lo + lo == (m + 1.0) * lo;
      assert m * hi + hi == (m + 1.0) * hi;
      assert m + 1.0 == |s| as real;
    }
  }

  /** `average(data_set)`: `sum(data_set) / len(data_set)`, which divides by
      zero on an empty list. */
  function Average(s: seq<real>): (r: Result<real>)
    ensures r.Success? <==> |s| > 0
    ensures r.Failure? ==> r.error == ZeroDivisionError
    ensures r.Success? ==> r.value * (|s| as real) == Sum(s)
  {
    if |s| == 0 then Failure(ZeroDivisionError) else Success(Sum(s) / (|s| as real))
  }

  /** The mean lies between any lower and upper bound of the samples. */
  lemma AverageWithin(s: seq<real>, lo: real, hi: real)
    requires |s| > 0
    requires forall i :: 0 <= i < |s| ==> lo <= s[i] <= hi
    ensures lo <= Average(s).value <= hi
  {
    SumBounds(s, lo, hi);
  }

  /** The mean of a reversed list is the mean of the list. */
  lemma AverageReverse(s: seq<real>)
    ensures Average(Reverse(s)) == Average(s)
  {
    SumReverse(s);
  }

  /** Python's `x**2`. */
  function Pow2(x: real): real
  {
    x * x
  }

  /** A product of a real with itself is never negative. Here and in
      `ZeroProduct` the two factors are separate parameters, which keeps the
      solver's nonlinear arithmetic stable; callers pass the same value twice. */
  lemma ProductNonNegative(a: real, b: real)
    requires a == b
    ensures a * b >= 0.0
  {
  }

  /** A product is zero only when one of its factors is. */
  lemma ZeroProduct(a: real, b: real)
    requires a * b == 0.0
    ensures a == 0.0 || b == 0.0
  {
  }

  /** A square is never negative, and is zero exactly at zero. */
  lemma Pow2Sign(d: real)
    ensures Pow2(d) >= 0.0
    ensures Pow2(d) == 0.0 <==> d == 0.0
  {
    ProductNonNegative(d, d);
    if Pow2(d) == 0.0 {
      ZeroProduct(d, d);
    }
  }

  /** `s` in the loop of `variance`: the left-to-right sum of `(val - mean)**2`. */
  function SquaredDeviations(s: seq<real>, mean: real): real
  {
    if |s| == 0 then 0.0
    else SquaredDeviations(s[..|s| - 1], mean) + Pow2(s[|s| - 1] - mean)
  }

  /** A sum of squares is never negative. */
  lemma {:induction false} SquaredDeviationsNonNegative(s: seq<real>, mean: real)
    ensures SquaredDeviations(s, mean) >= 0.0
    decreases |s|
  {
    if |s| > 0 {
      SquaredDeviationsNonNegative(s[..|s| - 1], mean);
      Pow2Sign(s[|s| - 1] - mean);
    }
  }

  /** The squared deviations vanish exactly when every sample equals the mean. */
  lemma {:induction false} SquaredDeviationsZero(s: seq<real>, mean: real)
    ensures SquaredDeviations(s, mean) == 0.0 <==> forall i :: 0 <= i < |s| ==> s[i] == mean
    decreases |s|
  {
    if |s| > 0 {
      var init := s[..|s| - 1];
      var d := s[|s| - 1] - mean;
      SquaredDeviationsZero(init, mean);
      SquaredDeviationsNonNegative(init, mean);
      Pow2Sign(d);
      assert forall i :: 0 <= i < |init| ==> init[i] == s[i];
    }
  }

  /** `variance(data_set)`: 0 below two samples, otherwise the unbiased sample
      variance `sum((x - mean)**2) / (len - 1)`. It is never negative. */
  function Variance(s: seq<real>): (r: real)
    ensures r >= 0.0
    ensures |s| < 2 ==> r == 0.0
  {
    if |s| < 2 then 0.0
    else
      var mean := Average(s).value;
      SquaredDeviationsNonNegative(s, mean);
      SquaredDeviations(s, mean) / ((|s| - 1) as real)
  }

  /** Every sample moved by `c`. */
  function Shift(s: seq<real>, c: real): (r: seq<real>)
    ensures |r| == |s|
    ensures forall i :: 0 <= i < |s| ==> r[i] == s[i] + c
  {
    seq(|s|, i requires 0 <= i < |s| => s[i] + c)
  }

  /** Moving every sample by `c` moves the sum by `len * c`. */
  lemma {:induction false} SumShift(s: seq<real>, c: real)
    ensures Sum(Shift(s, c)) == Sum(s) + (|s| as real) * c
    decreases |s|
  {
    if |s| > 0 {
      var init := s[..|s| - 1];
      var m := |init| as real;
      SumShift(init, c);
      assert Shift(s, c)[..|s| - 1] == Shift(init, c);
      assert m * c + c == (m + 1.0) * c;
    }
  }

  /** `a * n == b * n` with `n` positive gives `a == b`. */
  lemma CancelFactor(a: real, b: real, n: real)
    requires n > 0.0 && a * n == b * n
    ensures a == b
  {
    assert (a - b) * n == 0.0;
  }

  /** `(a + c) * n == a * n + n * c`. */
  lemma ShiftFactor(a: real, c: real, n: real)
    ensures (a + c) * n == a * n + n * c
  {
  }

  /** Moving every sample by `c` moves the mean by `c`. */
  lemma AverageShift(s: seq<real>, c: real)
    requires |s| > 0
    ensures Average(Shift(s, c)) == Success(Average(s).value + c)
  {
    var n := |s| as real;
    var mean := Average(s).value;
    var moved := Average(Shift(s, c)).value;
    SumShift(s, c);
    assert moved * n == mean * n + n * c;
    ShiftFactor(mean, c, n);
    CancelFactor(moved, mean + c, n);
  }

  /** Deviations from a mean moved along with the samples are unchanged. */
  lemma {:induction false} SquaredDeviationsShift(s: seq<real>, mean: real, c: real)
    ensures SquaredDeviations(Shift(s, c), mean + c) == SquaredDeviations(s, mean)
    decreases |s|
  {
    if |s| > 0 {
      var init := s[..|s| - 1];
      SquaredDeviationsShift(init, mean, c);
      assert Shift(s, c)[..|s| - 1] == Shift(init, c);
      assert (s[|s| - 1] + c) - (mean + c) == s[|s| - 1] - mean;
    }
  }

  /** The variance does not change when every sample moves by the same
      amount. */
  lemma VarianceShift(s: seq<real>, c: real)
    ensures Variance(Shift(s, c)) == Variance(s)
  {
    if |s| >= 2 {
      AverageShift(s, c);
      SquaredDeviationsShift(s, Average(s).value, c);
    }
  }

  /** A list of copies of `c` sums to `len * c`. */
  lemma {:induction false} SumConstant(s: seq<real>, c: real)
    requires forall i :: 0 <= i < |s| ==> s[i] == c
    ensures Sum(s) == (|s| as real) * c
    decreases |s|
  {
    if |s| > 0 {
      var m := (|s| - 1) as real;
      SumConstant(s[..|s| - 1], c);
      assert m * c + c == (m + 1.0) * c;
    }
  }

  /** With two or more samples the variance is zero exactly when all samples
      are equal. */
  lemma VarianceZeroIffConstant(s: seq<real>)
    requires |s| >= 2
    ensures Variance(s) == 0.0 <==> forall i :: 0 <= i < |s| ==> s[i] == s[0]
  {
    var mean := Average(s).value;
    SquaredDeviationsZero(s, mean);
    SquaredDeviationsNonNegative(s, mean);
    if forall i :: 0 <= i < |s| ==> s[i] == s[0] {
      SumConstant(s, s[0]);
      assert mean * (|s| as real) == (|s| as real) * s[0];
      assert mean == s[0];
    }
    var sq := SquaredDeviations(s, mean);
    var n1 := (|s| - 1) as real;
    if sq > 0.0 {
      assert sq / n1 > 0.0;
    }
  }

  /** stat_helper.py `sd`: the assignment `variance = variance(data_set)` makes
      `variance` local to the function, so reading it on the right-hand side
      raises UnboundLocalError before anything is computed. */
  function HelperSd(s: seq<real>): (r: Result<real>)
    ensures r.Failure? && r.error == UnboundLocalError
    ensures r != StatSd(s)
  {
    Failure(UnboundLocalError)
  }

  /** `math.sqrt` rejects a negative argument with ValueError; otherwise the
      model passes the argument on (the root itself is not modelled). */
  function SqrtArgument(x: real): Result<real>
  {
    if x < 0.0 then Failure(ValueError) else Success(x)
  }

  /** stat.py `sd`: `math.sqrt(variance(data_set))`, given as the variance that
      reaches `math.sqrt`. It never raises, for any list including the empty one. */
  function StatSd(s: seq<real>): (r: Result<real>)
    ensures r.Success? && r.value >= 0.0
  {
    SqrtArgument(Variance(s))
  }

  /** The two copies of `sd` disagree on every input: stat_helper.py's always
      raises, stat.py's never does. */
  lemma SdCopiesDisagree(s: seq<real>)
    ensures HelperSd(s) == Failure(UnboundLocalError)
    ensures StatSd(s) == Success(Variance(s))
  {
  }

  /** The running-variance loop of `plot_walk` (walk.py and stoch_walk.py):
      for each step, append it to `seen` and record `variance(seen)`. */
  method RunningVariance(values: seq<real>) returns (vars: seq<real>)
    ensures |vars| == |values|
    ensures forall i :: 0 <= i < |values| ==> vars[i] == Variance(values[..i + 1])
  {
    vars := [];
    var seen: seq<real> := [];
    for i := 0 to |values|
      invariant seen == values[..i]
      invariant |vars| == i
      invariant forall j :: 0 <= j < i ==> vars[j] == Variance(values[..j + 1])
    {
      seen := seen + [values[i]];
      vars := vars + [Variance(seen)];
    }
  }

  /** The running variance starts at 0, is never negative, and is 0 throughout
      for a constant series. */
  lemma RunningVarianceShape(values: seq<real>, vars: seq<real>)
    requires |vars| == |values|
    requires forall i :: 0 <= i < |values| ==> vars[i] == Variance(values[..i + 1])
    ensures |vars| > 0 ==> vars[0] == 0.0
    ensures forall i :: 0 <= i < |vars| ==> vars[i] >= 0.0
    ensures (forall i :: 0 <= i < |values| ==> values[i] == values[0]) ==>
              forall i :: 0 <= i < |vars| ==> vars[i] == 0.0
  {
    if forall i :: 0 <= i < |values| ==> values[i] == values[0] {
      forall i | 1 <= i < |vars|
        ensures vars[i] == 0.0
      {
        VarianceZeroIffConstant(values[..i + 1]);
      }
    }
  }
}

=== FILE: steps.dfy ===
/** One iteration of `generate_walk` (walk.py and stoch_walk.py), with the
    random numbers it draws passed in: `decision = rd.uniform(0, 1)` and a
    magnitude from `rd.uniform(lo, hi)` or `rd.randint(lo, hi)`; and the
    list of positions both walk classes keep. */
module Steps {
  import opened Errors

  /** The two numbers one iteration draws. */
  datatype Draw = Draw(decision: real, magnitude: real)

  /** One step from `current`: the magnitude is added when the decision falls
      below the probability and subtracted otherwise. */
  function Step(current: real, d: Draw, p: real): (r: real)
    ensures r - current == Signed(d, p)
    ensures d.magnitude > 0.0 ==> (r > current <==> d.decision < p)
  {
    if d.decision < p then current + d.magnitude else current - d.magnitude
  }

  /** The change a draw makes: its magnitude, negated unless the decision
      falls below the probability. */
  function Signed(d: Draw, p: real): real
  {
    if d.decision < p then d.magnitude else -d.magnitude
  }

  /** The positions appended by taking the draws in order from `current`:
      each one is a step from the one before it. */
  function Extend(current: real, draws: seq<Draw>, p: real): (r: seq<real>)
    ensures |r| == |draws|
    ensures |draws| > 0 ==> r[0] == Step(current, draws[0], p)
    ensures forall i :: 0 < i < |draws| ==> r[i] == Step(r[i - 1], draws[i], p)
    decreases |draws|
  {
    if |draws| == 0 then []
    else
      var next := Step(current, draws[0], p);
      [next] + Extend(next, draws[1..], p)
  }

  /** `view_walk`, i.e. `current_walk`: the start value (possibly `None`)
      followed by every generated position, in order. */
  function Positions(start: Option<real>, steps: seq<real>): (r: seq<Option<real>>)
    ensures |r| == |steps| + 1 && r[0] == start
    ensures forall i :: 0 <= i < |steps| ==> r[i + 1] == Some(steps[i])
  {
    [start] + seq(|steps|, i requires 0 <= i < |steps| => Some(steps[i]))
  }

  /** A real that is an integer, as `rd.randint` demands of its bounds. */
  predicate IsIntegral(x: real)
  {
    x == x.Floor as real
  }

  /** `rd.randint(lo, hi)` raises ValueError unless both bounds are integers
      and `lo <= hi`. */
  predicate RandintAccepts(lo: real, hi: real)
  {
    IsIntegral(lo) && IsIntegral(hi) && lo <= hi
  }

  /** A draw the generators can produce. The decision comes from
      `rd.uniform(0, 1)`, a value in `[0, 1)`. The magnitude of
      `rd.uniform(lo, hi)` lies between the two bounds in either order, and
      that of `rd.randint(lo, hi)` is an integer from `lo` to `hi`. */
  predicate DrawFits(d: Draw, lo: real, hi: real, uniform: bool)
  {
    && 0.0 <= d.decision < 1.0
    && if uniform then
         (lo <= d.magnitude <= hi || hi <= d.magnitude <= lo)
       else
         IsIntegral(d.magnitude) && lo <= d.magnitude <= hi
  }

  /** Taking `a` then `b` is taking `a + b`: the second run starts where the
      first one ends. */
  lemma {:induction false} ExtendAppend(current: real, a: seq<Draw>, b: seq<Draw>, p: real)
    requires |a| > 0
    ensures Extend(current, a + b, p)
            == Extend(current, a, p) + Extend(Extend(current, a, p)[|a| - 1], b, p)
    decreases |a|
  {
    var next := Step(current, a[0], p);
    assert (a + b)[1..] == a[1..] + b;
    if |a| > 1 {
      ExtendAppend(next, a[1..], b, p);
    }
  }

  /** Moving the start by `c` moves every later position by `c`: the
      draws alone fix the shape of the walk. */
  lemma {:induction false} ExtendShift(current: real, c: real, draws: seq<Draw>, p: real)
    ensures forall i :: 0 <= i < |draws| ==>
              Extend(current + c, draws, p)[i] == Extend(current, draws, p)[i] + c
    decreases |draws|
  {
    if |draws| > 0 {
      var next := Step(current, draws[0], p);
      assert Step(current + c, draws[0], p) == next + c;
      ExtendShift(next, c, draws[1..], p);
    }
  }

  /** From an integer start, integer magnitudes keep every position an
      integer: a walk in `randint` mode stays on the integer lattice. */
  lemma {:induction false} ExtendIntegral(current: real, draws: seq<Draw>, p: real)
    requires IsIntegral(current)
    requires forall i :: 0 <= i < |draws| ==> IsIntegral(draws[i].magnitude)
    ensures forall i :: 0 <= i < |draws| ==> IsIntegral(Extend(current, draws, p)[i])
    decreases |draws|
  {
    if |draws| > 0 {
      var next := Step(current, draws[0], p);
      IntegralStep(current, draws[0].magnitude);
      ExtendIntegral(next, draws[1..], p);
    }
  }

  /** Integers are closed under adding and subtracting integers. */
  lemma IntegralStep(x: real, m: real)
    requires IsIntegral(x) && IsIntegral(m)
    ensures IsIntegral(x + m) && IsIntegral(x - m)
  {
    IntegerFloor(x.Floor + m.Floor);
    IntegerFloor(x.Floor - m.Floor);
  }

  /** An integer is its own floor. */
  lemma IntegerFloor(k: int)
    ensures IsIntegral(k as real)
  {
    assert (k as real).Floor == k;
  }
}

=== FILE: stoch_walk.dfy ===
/** The `Walk` class of stoch_walk.py: a walk built from a start value by
    repeated `generate_walk` calls, each of which records its parameters.
    The step interval is a Python list `[lo, hi]`, indexed as such. The
    random numbers are passed in as a list of draws. */
module StochWalk {
  import opened Errors
  import opened Steps

  /** A walk object. `current_walk` is `[start] + steps`. */
  datatype Walk = Walk(
    start: Option<real>,
    steps: seq<real>,
    size: int,
    currentValue: Option<real>,
    addInterval: Option<seq<real>>,
    addProbability: Option<real>,
    floatSteps: bool)

  /** The last position of the walk, `current_walk[-1]`. */
  function LastPosition(w: Walk): Option<real>
  {
    if |w.steps| == 0 then w.start else Some(w.steps[|w.steps| - 1])
  }

  /** What `size` is meant to track: it counts the positions; a walk without
      a start value has no steps, and `current_value` is the last position. */
  predicate Valid(w: Walk)
  {
    && (w.start.None? ==> w.steps == [])
    && w.currentValue == LastPosition(w)
    && w.size == |w.steps| + 1
  }

  /** `view_walk`: the list `current_walk`. */
  function ViewWalk(w: Walk): seq<Option<real>>
  {
    Positions(w.start, w.steps)
  }

  /** The constructor `Walk(start_val)`: one position, no parameters yet. */
  function NewWalk(startVal: Option<real>): (w: Walk)
    ensures Valid(w) && ViewWalk(w) == [startVal] && w.size == 1
    ensures w.addInterval.None? && w.addProbability.None? && !w.floatSteps
  {
    Walk(startVal, [], 1, startVal, None, None, false)
  }

  /** `for step in range(num_steps)`: the number of iterations. */
  function StepCount(numSteps: int): int
  {
    if numSteps > 0 then numSteps else 0
  }

  /** The exception the first iteration raises, before it appends anything:
      indexing a `None` interval, a list without two entries, `rd.randint` on
      bounds it rejects, then `decision < add_probability` or `current_value
      + random_val` on `None`. Later iterations see the same values. */
  function FirstStepError(addInterval: Option<seq<real>>, addProbability: Option<real>,
                          uniform: bool, current: Option<real>): Option<Error>
  {
    if addInterval.None? then Some(TypeError)
    else if |addInterval.value| < 2 then Some(IndexError)
    else if !uniform && !RandintAccepts(addInterval.value[0], addInterval.value[1]) then Some(ValueError)
    else if addProbability.None? then Some(TypeError)
    else if current.None? then Some(TypeError)
    else None
  }

  /** `generate_walk(num_steps, add_interval=[1, 1], add_probability=0.5,
      uniform=False)`: first add `num_steps` to `size` and store the
      parameters, then take `num_steps` steps from the current value. */
  function GenerateWalk(w: Walk, numSteps: int, addInterval: Option<seq<real>>,
                        addProbability: Option<real>, uniform: bool, draws: seq<Draw>): (o: Outcome<Walk>)
    requires |draws| >= StepCount(numSteps)
    ensures o.raised.None? <==>
              numSteps <= 0 || FirstStepError(addInterval, addProbability, uniform, w.currentValue).None?
    ensures o.raised.Some? ==> o.raised == FirstStepError(addInterval, addProbability, uniform, w.currentValue)
    ensures o.state.size == w.size + numSteps
    ensures o.state.start == w.start
    ensures o.state.addInterval == addInterval && o.state.addProbability == addProbability
    ensures o.state.floatSteps == uniform
    ensures o.raised.Some? ==> o.state.steps == w.steps && o.state.currentValue == w.currentValue
    ensures o.raised.None? ==>
              && |o.state.steps| == |w.steps| + StepCount(numSteps)
              && o.state.steps[..|w.steps|] == w.steps
              && (w.currentValue == LastPosition(w) ==> o.state.currentValue == LastPosition(o.state))
    ensures o.raised.None? && StepCount(numSteps) > 0 ==>
              && w.currentValue.Some? && addProbability.Some?
              && o.state.steps[|w.steps|..]
                 == Extend(w.currentValue.value, draws[..StepCount(numSteps)], addProbability.value)
  {
    var recorded := w.(size := w.size + numSteps, addInterval := addInterval,
                       addProbability := addProbability, floatSteps := uniform);
    var count := StepCount(numSteps);
    if count == 0 then Outcome(recorded, None)
    else
      match FirstStepError(addInterval, addProbability, uniform, w.currentValue)
      case Some(e) => Outcome(recorded, Some(e))
      case None =>
        var added := Extend(w.currentValue.value, draws[..count], addProbability.value);
        Outcome(recorded.(steps := w.steps + added, currentValue := Some(added[count - 1])), None)
  }

  /** The default step list `[1, 1]`. */
  const DefaultInterval: seq<real> := [1.0, 1.0]

  /** The default probability of stepping up. */
  const DefaultProbability: real := 0.5

  /** A call that does not raise and takes a non-negative number of steps
      keeps the walk valid, appending exactly `num_steps` positions. */
  lemma GenerateKeepsValid(w: Walk, numSteps: int, addInterval: Option<seq<real>>,
                           addProbability: Option<real>, uniform: bool, draws: seq<Draw>)
    requires Valid(w) && numSteps >= 0 && |draws| >= numSteps
    ensures var o := GenerateWalk(w, numSteps, addInterval, addProbability, uniform, draws);
            o.raised.None? ==> Valid(o.state) && |ViewWalk(o.state)| == |ViewWalk(w)| + numSteps
  {
  }

  /** `size` runs ahead of the list when the call raises: it was increased
      before the first step failed, so the object no longer satisfies
      `Valid`. */
  lemma RaisingCallLeavesSizeAhead(w: Walk, numSteps: int, addInterval: Option<seq<real>>,
                                   addProbability: Option<real>, uniform: bool, draws: seq<Draw>)
    requires Valid(w) && |draws| >= StepCount(numSteps)
    ensures var o := GenerateWalk(w, numSteps, addInterval, addProbability, uniform, draws);
            o.raised.Some? ==> o.state.size == |ViewWalk(o.state)| + numSteps && !Valid(o.state)
  {
  }

  /** A negative `num_steps` takes no step yet lowers `size` below the
      number of positions. */
  lemma NegativeStepsShrinkSize(w: Walk, numSteps: int, addInterval: Option<seq<real>>,
                                addProbability: Option<real>, uniform: bool)
    requires Valid(w) && numSteps < 0
    ensures var o := GenerateWalk(w, numSteps, addInterval, addProbability, uniform, []);
            && o.raised.None?
            && ViewWalk(o.state) == ViewWalk(w)
            && o.state.size < |ViewWalk(o.state)|
  {
  }

  /** `regenerate_walk`: reset to `[start]` with size 1 and call
      `generate_walk(size - 1, ...)` with the parameters of the last call. */
  function RegenerateWalk(w: Walk, draws: seq<Draw>): (o: Outcome<Walk>)
    requires |draws| >= StepCount(w.size - 1)
    ensures o.raised.None? <==>
              w.size <= 1 || FirstStepError(w.addInterval, w.addProbability, w.floatSteps, w.start).None?
    ensures o.raised.Some? ==> o.raised == FirstStepError(w.addInterval, w.addProbability, w.floatSteps, w.start)
    ensures o.state.start == w.start
    ensures o.state.size == w.size
    ensures o.raised.Some? ==> o.state.steps == []
    ensures o.raised.None? ==> |ViewWalk(o.state)| == if w.size > 1 then w.size else 1
  {
    var reset := w.(size := 1, steps := [], currentValue := w.start);
    GenerateWalk(reset, w.size - 1, w.addInterval, w.addProbability, w.floatSteps, draws)
  }

  /** Regenerating a valid walk replays the last call's parameters and,
      unless it raises, rebuilds a valid walk with as many positions. */
  lemma RegenerateKeepsSize(w: Walk, draws: seq<Draw>)
    requires Valid(w) && |draws| >= StepCount(w.size - 1)
    ensures var o := RegenerateWalk(w, draws);
            && o.state.size == w.size
            && o.state.addInterval == w.addInterval
            && o.state.addProbability == w.addProbability
            && o.state.floatSteps == w.floatSteps
            && (o.raised.None? ==> Valid(o.state) && |ViewWalk(o.state)| == |ViewWalk(w)|)
            && (o.raised.None? && w.size > 1 ==>
                  && w.start.Some? && w.addProbability.Some?
                  && o.state.steps == Extend(w.start.value, draws[..w.size - 1], w.addProbability.value))
  {
  }

  /** With the default `[1, 1]` and integer steps, every draw that
      `rd.randint(1, 1)` can produce is 1: the call never raises on a walk
      with a current value, each step moves by exactly one unit, and from an
      integer current value every position stays an integer. */
  lemma DefaultStepsAreUnit(w: Walk, numSteps: int, draws: seq<Draw>)
    requires w.currentValue.Some? && numSteps >= 0 && |draws| >= numSteps
    requires forall i :: 0 <= i < numSteps ==> DrawFits(draws[i], 1.0, 1.0, false)
    ensures var o := GenerateWalk(w, numSteps, Some(DefaultInterval), Some(DefaultProbability), false, draws);
            var added := Extend(w.currentValue.value, draws[..numSteps], DefaultProbability);
            && o.raised.None?
            && o.state.steps == w.steps + added
            && (forall i :: 0 <= i < numSteps ==>
                  Signed(draws[i], DefaultProbability) == 1.0 || Signed(draws[i], DefaultProbability) == -1.0)
            && (IsIntegral(w.currentValue.value) ==> forall i :: 0 <= i < numSteps ==> IsIntegral(added[i]))
  {
    IntegerFloor(1);
    assert RandintAccepts(1.0, 1.0);
    forall i | 0 <= i < numSteps
      ensures draws[i].magnitude == 1.0
    {
      assert DrawFits(draws[i], 1.0, 1.0, false);
    }
    if IsIntegral(w.currentValue.value) {
      ExtendIntegral(w.currentValue.value, draws[..numSteps], DefaultProbability);
    }
  }
}

=== FILE: walk.dfy ===
/** The `Walk` class of walk.py: a walk that starts at `start_val` and takes
    additive random steps, each upwards with probability `add_probability`.
    The random numbers are passed in as a list of draws. */
module RandomWalk {
  import opened Errors
  import opened Intervals
  import opened Steps
  import Stats

  /** A walk object. `current_walk` is `[start] + steps`; `size` is the
      count the object keeps, which the constructor sets to 0 or 1 before
      generating and each generated step increments. */
  datatype Walk = Walk(
    start: Option<real>,
    steps: seq<real>,
    size: int,
    currentValue: Option<real>,
    addInterval: Option<Interval>,
    addProbability: Option<real>,
    floatSteps: bool)

  /** The last position of the walk, `current_walk[-1]`. */
  function LastPosition(w: Walk): Option<real>
  {
    if |w.steps| == 0 then w.start else Some(w.steps[|w.steps| - 1])
  }

  /** What every reachable walk satisfies: a walk without a start value has no
      steps (no step can be added to `None`), `current_value` is the last
      position, and `size` counts the positions, or one fewer for a walk
      constructed with size 0. */
  predicate Valid(w: Walk)
  {
    && (w.start.None? ==> w.steps == [])
    && w.currentValue == LastPosition(w)
    && (w.size == |w.steps| + 1 || w.size == |w.steps|)
  }

  /** `view_walk`: the list `current_walk`. */
  function ViewWalk(w: Walk): seq<Option<real>>
  {
    Positions(w.start, w.steps)
  }

  /** The positions as numbers, for a walk that has a start value. */
  function Path(w: Walk): (r: seq<real>)
    requires w.start.Some?
    ensures |r| == |w.steps| + 1
  {
    [w.start.value] + w.steps
  }

  /** `for step in range(num_steps - 1)`: the number of iterations. */
  function StepCount(numSteps: int): int
  {
    if numSteps > 1 then numSteps - 1 else 0
  }

  /** The exception the first iteration raises, before it appends anything:
      `add_interval.get_lower_bound()` on `None`, `rd.randint` on bounds it
      rejects, then `decision < add_probability` or `current_value +
      random_val` on `None`. Later iterations see the same values, so an
      iteration that gets past these gets past them every time. */
  function FirstStepError(addInterval: Option<Interval>, addProbability: Option<real>,
                          uniform: bool, current: Option<real>): Option<Error>
  {
    if addInterval.None? then Some(AttributeError)
    else if !uniform && !RandintAccepts(addInterval.value.lowerBound, addInterval.value.upperBound)
    then Some(ValueError)
    else if addProbability.None? then Some(TypeError)
    else if current.None? then Some(TypeError)
    else None
  }

  /** `generate_walk(num_steps, add_interval, add_probability, uniform)`:
      `num_steps - 1` steps from the current value, each incrementing `size`.
      The parameters are used but never stored on the object. */
  function GenerateWalk(w: Walk, numSteps: int, addInterval: Option<Interval>,
                        addProbability: Option<real>, uniform: bool, draws: seq<Draw>): (o: Outcome<Walk>)
    requires |draws| >= StepCount(numSteps)
    ensures o.raised.None? <==>
              StepCount(numSteps) == 0
              || FirstStepError(addInterval, addProbability, uniform, w.currentValue).None?
    ensures o.raised.Some? ==> o.raised == FirstStepError(addInterval, addProbability, uniform, w.currentValue)
    ensures o.raised.Some? ==> o.state == w
    ensures o.state.start == w.start
    ensures o.state.addInterval == w.addInterval && o.state.addProbability == w.addProbability
    ensures o.state.floatSteps == w.floatSteps
    ensures o.raised.None? ==>
              && |o.state.steps| == |w.steps| + StepCount(numSteps)
              && o.state.steps[..|w.steps|] == w.steps
              && o.state.size == w.size + StepCount(numSteps)
    ensures o.raised.None? && StepCount(numSteps) > 0 ==>
              && w.currentValue.Some? && addProbability.Some?
              && o.state.steps[|w.steps|..]
                 == Extend(w.currentValue.value, draws[..StepCount(numSteps)], addProbability.value)
    ensures Valid(w) ==> Valid(o.state)
  {
    var count := StepCount(numSteps);
    if count == 0 then Outcome(w, None)
    else
      match FirstStepError(addInterval, addProbability, uniform, w.currentValue)
      case Some(e) => Outcome(w, Some(e))
      case None =>
        var added := Extend(w.currentValue.value, draws[..count], addProbability.value);
        var steps := w.steps + added;
        Outcome(w.(steps := steps, size := w.size + count, currentValue := Some(added[count - 1])), None)
  }

  /** The defaults of `generate_walk`: `Interval(-1, 1)`, probability 0.5,
      integer steps. */
  function GenerateWalkWithDefaults(w: Walk, numSteps: int, draws: seq<Draw>): (o: Outcome<Walk>)
    requires |draws| >= StepCount(numSteps)
    ensures o.raised.None? <==> StepCount(numSteps) == 0 || w.currentValue.Some?
  {
    GenerateWalk(w, numSteps, Some(NewInterval(-1.0, 1.0)), Some(0.5), false, draws)
  }

  /** The constructor `Walk(size, start_val, add_interval, add_probability,
      uniform_random)`: a nonzero size demands all three values; the object
      starts as `[start_val]` with size 0 (for `size == 0`) or 1 and then
      generates `size` steps with the same parameters. */
  function NewWalk(size: int, startVal: Option<real>, addInterval: Option<Interval>,
                   addProbability: Option<real>, uniform: bool, draws: seq<Draw>): (r: Result<Walk>)
    requires |draws| >= StepCount(size)
    ensures r.Failure? ==> r.error == MissingParameters || r.error == ValueError
    ensures r.Success? ==> Valid(r.value) && r.value.start == startVal
  {
    if size != 0 && (startVal.None? || addInterval.None? || addProbability.None?) then
      Failure(MissingParameters)
    else
      var initial := Walk(startVal, [], if size == 0 then 0 else 1, startVal,
                          addInterval, addProbability, uniform);
      var o := GenerateWalk(initial, size, addInterval, addProbability, uniform, draws);
      if o.raised.Some? then Failure(o.raised.value) else Success(o.state)
  }

  /** The constructor fails for a missing parameter, or for `rd.randint`
      bounds when at least one step is taken; otherwise the walk is valid,
      keeps the parameters, and holds `max(size, 1)` positions, `size`
      counting them except that a size-0 walk counts none. */
  lemma NewWalkOutcome(size: int, startVal: Option<real>, addInterval: Option<Interval>,
                       addProbability: Option<real>, uniform: bool, draws: seq<Draw>)
    requires |draws| >= StepCount(size)
    ensures var r := NewWalk(size, startVal, addInterval, addProbability, uniform, draws);
            && (r == Failure(MissingParameters) <==>
                  size != 0 && (startVal.None? || addInterval.None? || addProbability.None?))
            && (r == Failure(ValueError) <==>
                  && startVal.Some? && addInterval.Some? && addProbability.Some?
                  && size > 1 && !uniform
                  && !RandintAccepts(addInterval.value.lowerBound, addInterval.value.upperBound))
            && (r.Failure? ==> r == Failure(MissingParameters) || r == Failure(ValueError))
            && (r.Success? ==>
                  && Valid(r.value)
                  && r.value.start == startVal
                  && r.value.addInterval == addInterval
                  && r.value.addProbability == addProbability
                  && r.value.floatSteps == uniform
                  && |ViewWalk(r.value)| == (if size > 1 then size else 1)
                  && r.value.size == (if size == 0 then 0 else |ViewWalk(r.value)|))
  {
  }

  /** `regenerate_walk` as written: reset to `[start]` with size 1 and call
      `generate_walk(size - 1, ...)` with the constructor's parameters. As
      `generate_walk` takes `num_steps - 1` steps, this rebuilds one position
      fewer than the walk had. */
  function RegenerateWalkAsWritten(w: Walk, draws: seq<Draw>): (o: Outcome<Walk>)
    requires |draws| >= StepCount(w.size - 1)
    ensures o.raised.None? <==>
              w.size <= 2 || FirstStepError(w.addInterval, w.addProbability, w.floatSteps, w.start).None?
    ensures o.raised.Some? ==> o.raised == FirstStepError(w.addInterval, w.addProbability, w.floatSteps, w.start)
    ensures o.raised.None? && w.size > 2 ==>
              && w.start.Some? && w.addProbability.Some?
              && o.state.steps == Extend(w.start.value, draws[..w.size - 2], w.addProbability.value)
    ensures o.state.start == w.start
    ensures o.raised.None? ==> |ViewWalk(o.state)| == (if w.size > 2 then w.size - 1 else 1)
    ensures o.raised.None? ==> o.state.size == |ViewWalk(o.state)|
    ensures o.raised.Some? ==> o.state.steps == [] && o.state.size == 1
  {
    var reset := w.(size := 1, steps := [], currentValue := w.start);
    GenerateWalk(reset, w.size - 1, w.addInterval, w.addProbability, w.floatSteps, draws)
  }

  /** `regenerate_walk` as evidently intended: a fresh walk of the same size,
      i.e. `generate_walk(size, ...)` after the reset. */
  function RegenerateWalk(w: Walk, draws: seq<Draw>): (o: Outcome<Walk>)
    requires |draws| >= StepCount(w.size)
    ensures o.raised.None? <==>
              w.size <= 1 || FirstStepError(w.addInterval, w.addProbability, w.floatSteps, w.start).None?
    ensures o.raised.Some? ==> o.raised == FirstStepError(w.addInterval, w.addProbability, w.floatSteps, w.start)
    ensures o.raised.None? && w.size > 1 ==>
              && w.start.Some? && w.addProbability.Some?
              && o.state.steps == Extend(w.start.value, draws[..w.size - 1], w.addProbability.value)
    ensures o.state.start == w.start
    ensures o.raised.None? ==> o.state.size == |ViewWalk(o.state)|
    ensures o.raised.None? ==> o.state.size == if w.size > 1 then w.size else 1
    ensures o.raised.Some? ==> o.state.steps == [] && o.state.size == 1
  {
    var reset := w.(size := 1, steps := [], currentValue := w.start);
    GenerateWalk(reset, w.size, w.addInterval, w.addProbability, w.floatSteps, draws)
  }

  /** Regenerating a walk of `n >= 2` positions as written leaves `n - 1`. */
  lemma RegenerateShrinks(w: Walk, draws: seq<Draw>)
    requires Valid(w) && w.size == |ViewWalk(w)| && w.size >= 2
    requires |draws| >= StepCount(w.size - 1)
    ensures var o := RegenerateWalkAsWritten(w, draws);
            o.raised.None? ==> |ViewWalk(o.state)| == |ViewWalk(w)| - 1 && o.state.size == w.size - 1
  {
  }

  /** A concrete case: a 3-position walk comes back with 2 positions. */
  lemma RegenerateShrinksExample()
    ensures var w := Walk(Some(0.0), [1.0, 2.0], 3, Some(2.0), Some(NewInterval(1.0, 1.0)), Some(0.5), false);
            var o := RegenerateWalkAsWritten(w, [Draw(0.25, 1.0)]);
            && o.raised.None?
            && ViewWalk(w) == [Some(0.0), Some(1.0), Some(2.0)]
            && ViewWalk(o.state) == [Some(0.0), Some(1.0)]
  {
    var w := Walk(Some(0.0), [1.0, 2.0], 3, Some(2.0), Some(NewInterval(1.0, 1.0)), Some(0.5), false);
    var o := RegenerateWalkAsWritten(w, [Draw(0.25, 1.0)]);
    assert RandintAccepts(1.0, 1.0) by {
      IntegerFloor(1);
    }
    assert o.state.steps == [1.0];
  }

  /** The corrected regeneration restarts from the start value with the
      constructor's parameters and, unless it raises, rebuilds a valid walk
      with as many positions as before. */
  lemma RegenerateKeepsSize(w: Walk, draws: seq<Draw>)
    requires Valid(w) && w.size == |ViewWalk(w)|
    requires |draws| >= StepCount(w.size)
    ensures var o := RegenerateWalk(w, draws);
            && Valid(o.state)
            && o.state.start == w.start
            && o.state.addInterval == w.addInterval
            && o.state.addProbability == w.addProbability
            && (o.raised.None? <==>
                  w.size <= 1 || FirstStepError(w.addInterval, w.addProbability, w.floatSteps, w.start).None?)
            && (o.raised.None? ==> |ViewWalk(o.state)| == |ViewWalk(w)| && o.state.size == w.size)
            && (o.raised.None? && w.size > 1 ==>
                  && w.start.Some? && w.addProbability.Some?
                  && o.state.steps == Extend(w.start.value, draws[..w.size - 1], w.addProbability.value))
            && (o.raised.Some? ==> o.state.steps == [] && o.state.size == 1)
  {
  }

  /** `get_stepdiff`: `None` below two positions, otherwise the `size - 1`
      differences between consecutive positions. */
  function GetStepDiff(w: Walk): (r: Option<seq<real>>)
    requires Valid(w)
    ensures r.Some? <==> w.size >= 2
    ensures r.Some? ==> w.start.Some? && |r.value| == w.size - 1 <= |w.steps|
  {
    if w.size < 2 then None
    else
      var path := Path(w);
      Some(seq(w.size - 1, i requires 0 <= i < w.size - 1 => path[i + 1] - path[i]))
  }

  /** The differences add up to the distance from the start to position
      `size - 1`. */
  lemma StepDiffTelescopes(w: Walk)
    requires Valid(w) && w.size >= 2
    ensures Stats.Sum(GetStepDiff(w).value) == Path(w)[w.size - 1] - Path(w)[0]
  {
    var d := GetStepDiff(w).value;
    var path := Path(w);
    PrefixDiffSum(path, d, |d|);
    assert d[..|d|] == d;
  }

  /** Inductive core of `StepDiffTelescopes`. */
  lemma {:induction false} PrefixDiffSum(path: seq<real>, d: seq<real>, k: nat)
    requires |d| < |path| && k <= |d|
    requires forall i :: 0 <= i < |d| ==> d[i] == path[i + 1] - path[i]
    ensures Stats.Sum(d[..k]) == path[k] - path[0]
  {
    if k > 0 {
      PrefixDiffSum(path, d, k - 1);
      assert d[..k][..k - 1] == d[..k - 1];
    }
  }

  /** A walk constructed with `size >= 2` holds exactly the positions the
      draws lead to from the start value. */
  lemma NewWalkSteps(size: int, startVal: Option<real>, addInterval: Option<Interval>,
                     addProbability: Option<real>, uniform: bool, draws: seq<Draw>)
    requires |draws| >= StepCount(size)
    requires NewWalk(size, startVal, addInterval, addProbability, uniform, draws).Success?
    requires size >= 2
    ensures var w := NewWalk(size, startVal, addInterval, addProbability, uniform, draws).value;
            && startVal.Some? && addProbability.Some?
            && w.start == startVal && w.size == size
            && w.steps == Extend(startVal.value, draws[..size - 1], addProbability.value)
  {
  }

  /** The differences of a walk whose steps were generated from its start
      value are the draws' signed magnitudes: up exactly when the decision is
      below the probability. */
  lemma StepDiffFollowsDraws(w: Walk, draws: seq<Draw>, p: real)
    requires Valid(w) && w.start.Some? && w.size == |w.steps| + 1 >= 2
    requires w.steps == Extend(w.start.value, draws, p)
    ensures var d := GetStepDiff(w).value;
            && |d| == |draws|
            && forall i :: 0 <= i < |d| ==> d[i] == Signed(draws[i], p)
  {
    var path := Path(w);
    var d := GetStepDiff(w).value;
    forall i | 0 <= i < |draws|
      ensures d[i] == Signed(draws[i], p)
    {
      assert d[i] == path[i + 1] - path[i];
      if i > 0 {
        assert path[i] == w.steps[i - 1];
      }
    }
  }

  /** Two walks generated by the same draws from starts `c` apart are the
      same walk moved by `c`, so the running variance `plot_walk` draws is
      the same for both. */
  lemma RunningVarianceIgnoresStart(a: real, c: real, draws: seq<Draw>, p: real)
    ensures var path := [a] + Extend(a, draws, p);
            var moved := [a + c] + Extend(a + c, draws, p);
            && moved == Stats.Shift(path, c)
            && forall i :: 0 < i <= |path| ==> Stats.Variance(moved[..i]) == Stats.Variance(path[..i])
  {
    var path := [a] + Extend(a, draws, p);
    var moved := [a + c] + Extend(a + c, draws, p);
    ExtendShift(a, c, draws, p);
    assert moved == Stats.Shift(path, c);
    forall i | 0 < i <= |path|
      ensures Stats.Variance(moved[..i]) == Stats.Variance(path[..i])
    {
      assert moved[..i] == Stats.Shift(path[..i], c);
      Stats.VarianceShift(path[..i], c);
    }
  }

  /** `abs(value)`. */
  function Abs(v: real): real
  {
    if v < 0.0 then -v else v
  }

  /** `value / abs(value)` for a nonzero `value`: its sign. */
  function Direction(v: real): (r: real)
    requires v != 0.0
    ensures r == if v > 0.0 then 1.0 else -1.0
  {
    if v > 0.0 then
      DivideSame(v, Abs(v));
      v / Abs(v)
    else
      DivideOpposite(v, Abs(v));
      v / Abs(v)
  }

  /** `a / a == 1`. Here and in `DivideOpposite` the numerator and the
      divisor are separate parameters, which keeps the solver's nonlinear
      arithmetic stable; the caller passes `v` and `abs(v)`. */
  lemma DivideSame(a: real, b: real)
    requires a == b && a != 0.0
    ensures a / b == 1.0
  {
  }

  /** `-b / b == -1`. */
  lemma DivideOpposite(a: real, b: real)
    requires a == -b && a != 0.0
    ensures a / b == -1.0
  {
  }

  /** The loop of `get_step_direction`: a zero difference divides by zero. */
  function Directions(diffs: seq<real>): (r: Result<seq<real>>)
    ensures r.Success? <==> forall i :: 0 <= i < |diffs| ==> diffs[i] != 0.0
    ensures r.Failure? ==> r.error == ZeroDivisionError
    ensures r.Success? ==> |r.value| == |diffs|
    decreases |diffs|
  {
    if |diffs| == 0 then Success([])
    else if diffs[0] == 0.0 then Failure(ZeroDivisionError)
    else
      match Directions(diffs[1..])
      case Failure(e) => Failure(e)
      case Success(rest) => Success([Direction(diffs[0])] + rest)
  }

  /** Each direction is 1 for a rise and -1 for a fall. */
  lemma {:induction false} DirectionsAreSigns(diffs: seq<real>)
    requires Directions(diffs).Success?
    ensures forall i :: 0 <= i < |diffs| ==>
              (Directions(diffs).value[i] == 1.0 <==> diffs[i] > 0.0)
              && (Directions(diffs).value[i] == -1.0 <==> diffs[i] < 0.0)
    decreases |diffs|
  {
    if |diffs| > 0 {
      DirectionsAreSigns(diffs[1..]);
      var rest := Directions(diffs[1..]).value;
      assert Directions(diffs).value == [Direction(diffs[0])] + rest;
    }
  }

  /** `get_step_direction`: iterating over the `None` that `get_stepdiff`
      returns below two positions raises TypeError; a zero step divides by
      zero. */
  function GetStepDirection(w: Walk): (r: Result<seq<real>>)
    requires Valid(w)
    ensures r == Failure(TypeError) <==> w.size < 2
    ensures r.Success? ==> |r.value| == w.size - 1
  {
    match GetStepDiff(w)
    case None => Failure(TypeError)
    case Some(d) => Directions(d)
  }

  /** For a walk whose steps were generated from its start value with
      positive magnitudes, the directions are exactly the outcomes of the
      decisions: 1 when the decision fell below the probability, -1
      otherwise. */
  lemma DirectionsFollowDecisions(w: Walk, draws: seq<Draw>, p: real)
    requires Valid(w) && w.start.Some? && w.size == |w.steps| + 1 >= 2
    requires w.steps == Extend(w.start.value, draws, p)
    requires forall i :: 0 <= i < |draws| ==> draws[i].magnitude > 0.0
    ensures var r := GetStepDirection(w);
            && r.Success? && |r.value| == |draws|
            && forall i :: 0 <= i < |draws| ==>
                 (r.value[i] == 1.0 <==> draws[i].decision < p)
                 && (r.value[i] == -1.0 <==> !(draws[i].decision < p))
  {
    StepDiffFollowsDraws(w, draws, p);
    DirectionsAreSigns(GetStepDiff(w).value);
  }
}
